=== FILE: README.md ===
# Daily-guide progress model

A Dafny model of the client-side progress logic of a habit-tracking web app.
A user picks a skill category and follows a weekly plan of daily tasks. They
check tasks off, and they move to the next day once the day is done. All data
lives in a hosted store. This model covers the logic the client runs over
that data:

- **UseTasks** (the `useTasks` hook). Local state is the active plan, the
  user's progress row (`current_day`) and the cached task completions. It
  models the optimistic toggle with rollback, the choice between a remote
  insert and a remote delete, the bounded "advance day", the `currentDay`
  lookup with its fallback, `allTasksCompleted`, and lazy creation of progress
  at day 1.
- **RemoteStore**. This is the completions table as the hook sees it. An
  insert appends a row. A delete removes every row matching (user, plan, day,
  task). The hook's read returns every row of (user, plan), whatever its day.
- **Completions**. This holds membership by task id and the optimistic edit
  of the cached list.
- **Dashboard**. It covers the view choice (spinner, no plan, day view), the
  total estimated time, the task cards, the progress-bar inputs and the
  last-day test. It also covers the celebration latch: two React effects
  plus the "next day" handler.
- **DayProgress**. It builds the strip of day dots (past, current, selected)
  and computes the progress percentage in exact arithmetic.
- **Categories**. It groups categories by platform name, with an "Other"
  default. It also covers the icon lookup with its fallback and the route a
  category opens.
- **Findings**. It puts each discrepancy found below as written next to its
  corrected definition.

Each remote answer the logic depends on is a parameter: an `Outcome`
(`Success` | `Failure`) for a write or a completions read, and a `Result` for
a read whose value is used. The model performs no I/O.

Points where the code fixes the behaviour:

- The hook reads completions for the whole plan, not for the current day
  (src/hooks/useTasks.ts:72-76). So membership ignores the day, and an
  advance does not clear the list.
- The optimistic edit runs even when user, plan or progress is missing
  (src/hooks/useTasks.ts:112-128). Only the remote write is skipped
  (src/hooks/useTasks.ts:87).
- A toggle edits the cache before the write and restores the snapshot when
  the write fails (src/hooks/useTasks.ts:112-136).

The `UseTasks` module models the code as written. The corrected, day-scoped
definitions are in `Findings`.

## Model

| member | source | states |
|---|---|---|
| UseTasks.LoadPlan | src/hooks/useTasks.ts:11-31 | no query is made without a non-empty slug, and the result is then an absent plan; otherwise the store's answer is returned, so an absent plan stays absent and an error propagates |
| UseTasks.LoadProgress | src/hooks/useTasks.ts:34-64 | a query is made iff user and plan are present; an existing row is returned unchanged with no insert; an insert happens exactly when the read finds no row, and it creates (user, plan, day 1); a read or insert error propagates |
| UseTasks.LoadProgressCreatesOnce | src/hooks/useTasks.ts:39-61 | a load that created progress, repeated once the store returns the created row, inserts nothing and yields the same row at day 1 |
| UseTasks.LoadCompletions | src/hooks/useTasks.ts:67-82 | the list is empty without a user or plan; otherwise a failed read is an error, and a successful read has a task iff some stored row of (user, plan) carries it, on any day |
| UseTasks.CompletedTasks | src/hooks/useTasks.ts:67 | `completedTasks` is the empty list while the query has no data, and the cached list once it has |
| Completions.HasTask | src/hooks/useTasks.ts:163 | `isTaskCompleted` is true iff some cached entry carries the task id, regardless of its day |
| Completions.WithoutTask | src/hooks/useTasks.ts:119 | the filter keeps exactly the entries of other tasks and drops every entry of the task |
| Completions.WithoutPresentTaskShrinks | src/hooks/useTasks.ts:119 | filtering out a task that some entry carries makes the list strictly shorter |
| Completions.WithoutTaskAppend | src/hooks/useTasks.ts:119 | filtering distributes over concatenation, so the kept entries stay in their original order |
| Completions.WithoutAbsentTask | src/hooks/useTasks.ts:117-119 | filtering out a task that no entry carries leaves the list unchanged |
| Completions.OptimisticToggle | src/hooks/useTasks.ts:116-128 | the toggled task's membership flips and no other task's membership changes; the present case drops all its entries; the absent case appends exactly one entry with the task and the current day |
| Completions.ToggleTwiceRestoresMembership | src/hooks/useTasks.ts:116-128 | toggling the same task twice restores every task id's membership |
| Completions.ToggleTwiceMayChangeList | src/hooks/useTasks.ts:116-128 | a double toggle need not restore the list itself, because duplicates are collapsed and the re-added entry carries the new day |
| RemoteStore.Apply | src/hooks/useTasks.ts:92-108 | an insert appends exactly one row for the key; a delete removes exactly the rows matching all four key columns and keeps the rest |
| RemoteStore.DeleteRows | src/hooks/useTasks.ts:92-98 | surviving rows are the non-matching rows of the store, and every non-matching row survives |
| RemoteStore.Fetch | src/hooks/useTasks.ts:72-76 | the read is day-agnostic: a task is fetched iff some row of (user, plan) has it; a (task, day) pair is fetched iff that exact row is stored; every fetched entry carries a day |
| RemoteStore.FetchAppend | src/hooks/useTasks.ts:72-76 | the read preserves store order, because fetching distributes over concatenated rows |
| RemoteStore.DeleteKeepsOtherDays | src/hooks/useTasks.ts:92-98 | a day-scoped delete leaves the task completed for the plan-wide read whenever a row for it exists on another day |
| RemoteStore.DeleteUnmatched | src/hooks/useTasks.ts:92-98 | a delete matching no row leaves the store unchanged |
| RemoteStore.InsertThenDeleteRestores | src/hooks/useTasks.ts:92-108 | an insert followed by a delete of the same key, on a store with no row for that key, leaves zero net rows |
| UseTasks.ProgressDay | src/hooks/useTasks.ts:123 | the day stamped on an optimistic entry is `current_day` when progress is loaded and absent otherwise |
| UseTasks.RemoteWrite | src/hooks/useTasks.ts:87-110 | there is no write iff user, plan or progress is missing; the write is keyed by (user, plan, current_day, task); it is a delete iff the task is in the cached list, otherwise an insert |
| UseTasks.Toggle | src/hooks/useTasks.ts:112-136 | only the cache changes; unless a write failed while the cache had data, the cache is the optimistic edit of the pre-toggle list (so a failed write without a snapshot keeps the edit, as `onError` has nothing to restore); on a failed write, when a snapshot existed, the state is exactly the pre-toggle state |
| UseTasks.ToggleFlipsOnlyThatTask | src/hooks/useTasks.ts:116-128 | after a toggle that did not fail, the task's membership is flipped and every other task's membership is unchanged |
| UseTasks.WriteAgreesWithOptimisticEdit | src/hooks/useTasks.ts:89-127 | a delete is issued exactly when the optimistic list no longer holds the task |
| UseTasks.FailureWithoutSnapshotKeepsOptimistic | src/hooks/useTasks.ts:132-136 | with no snapshot (the cache had no data), a failed write leaves the optimistic entry in place |
| UseTasks.Refetch | src/hooks/useTasks.ts:137-139 | the settle refetch changes only the cache; a successful read sets it to the plan-wide read of the store; a failed read leaves the state as it was; without a user or plan the query is disabled (line 81) and the state, optimistic edit included, stays as it was |
| UseTasks.ToggleAgreesWithStore | src/hooks/useTasks.ts:89-139 | with the cache in sync, and all of the task's rows on the current day, the refetched list after a successful write has the task iff the optimistic list does |
| UseTasks.ToggleTwiceRestoresStore | src/hooks/useTasks.ts:91-110 | two successful toggles of an uncompleted task, each followed by a refetch, restore the store exactly and return the hook to its original state |
| UseTasks.ToggleDeletesOnlyRow | src/hooks/useTasks.ts:89-98 | toggling a completed task whose one stored row is on the current day issues a delete that removes exactly that row, and the refetch no longer shows the task |
| UseTasks.ToggleInsertsRow | src/hooks/useTasks.ts:99-108 | toggling a task that is not completed, with the cache in sync, appends its current-day row, and the refetch reads the grown store |
| UseTasks.ToggleTwiceFromCompletedRestoresRows | src/hooks/useTasks.ts:89-139 | two successful toggles of a task completed by one current-day row delete and re-insert that row: the store holds the same multiset of rows and the refetched cache the same multiset of entries |
| UseTasks.ToggleTwiceDropsDuplicateRow | src/hooks/useTasks.ts:92-108 | with two identical rows for the task on the current day, the first toggle deletes both and the second inserts one, so the store loses a row |
| RemoteStore.DeleteOnlyMatch | src/hooks/useTasks.ts:92-98 | a delete whose key matches exactly one row removes that row and keeps the others in order |
| RemoteStore.FetchMovedRow | src/hooks/useTasks.ts:72-76 | moving one row to the end of the store permutes the entries the read returns |
| UseTasks.FindDay | src/hooks/useTasks.ts:161 | it finds the index of the first day with the given number, or reports that none has it |
| UseTasks.CurrentDay | src/hooks/useTasks.ts:161 | there is no day without a plan; the result is the first day numbered `current_day` when one exists; otherwise it is the plan's first day, or nothing for an empty plan |
| UseTasks.EveryCompleted | src/hooks/useTasks.ts:166 | `every` over a task list is true iff each task id is a member of the cached list |
| UseTasks.AllTasksCompleted | src/hooks/useTasks.ts:165-167 | false without a current day; otherwise true iff every task id of that day is in the cached list |
| UseTasks.AllTasksCompletedVacuous | src/hooks/useTasks.ts:166 | a day with zero tasks counts as completed |
| UseTasks.CompletingLastTaskCompletesDay | src/hooks/useTasks.ts:116-128 | when every other task of the current day is completed, a non-failing toggle of the one open task makes `allTasksCompleted` true |
| UseTasks.Advance | src/hooks/useTasks.ts:143-153 | the procedure is called iff user, plan and progress are present and current_day + 1 is at most the day count; without a call the result is false; after a call the result is true iff it succeeded, and a failure propagates as an error |
| UseTasks.AdvanceStaysInBounds | src/hooks/useTasks.ts:145-147 | a true result means the requested day, current_day + 1, lies within the plan |
| UseTasks.AdvanceFromLastDay | src/hooks/useTasks.ts:147-148 | from the last day no call is made and the result is false |
| Dashboard.SelectView | src/pages/Dashboard.tsx:52-56 | the spinner is shown iff loading; after loading, the no-plan view is chosen iff the plan, the current day or the progress is absent |
| Dashboard.NoPlanWithoutPlan | src/pages/Dashboard.tsx:56 | without a plan the hook yields no current day, so the page shows the no-plan view |
| Dashboard.TotalTime | src/pages/Dashboard.tsx:75 | the estimated time of a day without tasks is 0, and it is never negative when no estimate is |
| Dashboard.TotalTimeAppend | src/pages/Dashboard.tsx:75 | the total of concatenated task lists is the sum of their totals |
| Dashboard.TotalTimeFromFront | src/pages/Dashboard.tsx:75 | the left-fold total equals the first estimate plus the total of the rest |
| Dashboard.TotalTimeBoundsEachTask | src/pages/Dashboard.tsx:75 | with non-negative estimates, the total is at least each task's estimate |
| Dashboard.TaskCards | src/pages/Dashboard.tsx:121-128 | there is one card per task of the day, in order, carrying its index, and each card's `isCompleted` equals `isTaskCompleted(task.id)` |
| Dashboard.CardsAllCheckedIffAllCompleted | src/pages/Dashboard.tsx:121-128 | every card is checked iff the hook reports the day complete |
| Dashboard.IsLastDay | src/pages/Dashboard.tsx:76 | measured against the day count, the last-day test holds iff no next day lies within the plan |
| Dashboard.IsLastDayIffAdvanceRejected | src/pages/Dashboard.tsx:76 | measured against the day count, the last-day test holds iff advancing makes no call, and the result is then false |
| Dashboard.CoveredTasksBound | src/pages/Dashboard.tsx:103-104 | a list holding every id of a day whose task ids are distinct is at least as long as the day |
| Dashboard.ProgressInputs | src/pages/Dashboard.tsx:100-105 | the completed count is the length of the whole cached list; the total is the current day's task count; so a complete day with distinct task ids gives a completed count at least the total |
| Dashboard.Commit | src/pages/Dashboard.tsx:32-43 | the celebration opens whenever the open effect's dependencies changed, all tasks are done, a current day exists, it was not shown yet and the day did not change, and it opens only if the last four hold; opening sets the shown flag; a day change resets both flags; once shown on a day, a commit on that day keeps the flag and does not reopen; a commit where neither effect's dependencies changed leaves both flags as they were |
| Dashboard.CompletingDayOpensCelebration | src/pages/Dashboard.tsx:32-37 | completing the one open task of a day whose celebration was not shown opens it at the next commit |
| Dashboard.NoReopenOnceShown | src/pages/Dashboard.tsx:32-37 | once the shown flag is set, no commit on the same day opens the celebration |
| Dashboard.OpensAtMostOncePerDay | src/pages/Dashboard.tsx:32-37 | over any run of commits on one day, the celebration opens at most once |
| Dashboard.FirstCommitEndsClosed | src/pages/Dashboard.tsx:32-43 | the first commit ends with both flags false, because the reset effect runs after the open effect |
| Dashboard.HandleNextDay | src/pages/Dashboard.tsx:45-50 | a true result hides the celebration; false or an error leaves the flags unchanged |
| Dashboard.NextDayOnLastDayKeepsCelebration | src/pages/Dashboard.tsx:45-50 | on the last day the handler leaves the celebration as it was |
| DayProgress.Dots | src/components/DayProgress.tsx:27-31 | there are exactly `totalDays` dots (none for a negative count), numbered 1..N in order; each is past iff its number is below the current day, current iff equal, selected iff it equals the selected day; it is muted iff neither past nor selected |
| DayProgress.PastAndCurrentExclusive | src/components/DayProgress.tsx:29-30 | no dot is both past and current |
| DayProgress.CountCurrent | src/components/DayProgress.tsx:30 | no more dots are counted current than the strip holds |
| DayProgress.CountSelected | src/components/DayProgress.tsx:31 | no more dots are counted selected than the strip holds |
| DayProgress.ExactlyOneCurrentDot | src/components/DayProgress.tsx:30 | at most one dot is current, and exactly one iff 1 <= currentDay <= totalDays |
| DayProgress.AtMostOneSelectedDot | src/components/DayProgress.tsx:31 | at most one dot is selected, and none without a selected day |
| DayProgress.CountCurrentIncreasing | src/components/DayProgress.tsx:30 | in a strip with increasing numbers, one dot is current when the current day appears and none otherwise |
| DayProgress.CountSelectedIncreasing | src/components/DayProgress.tsx:31 | in a strip with increasing numbers, at most one dot is selected |
| DayProgress.Click | src/components/DayProgress.tsx:36 | a click reaches the handler iff one is given, and passes the dot's own number |
| DayProgress.ClickSelectsItsDay | src/components/DayProgress.tsx:36 | clicking the i-th dot passes day i + 1 |
| DayProgress.Progress | src/components/DayProgress.tsx:21 | progress is 0 without tasks or without completions |
| DayProgress.ProgressFullIff | src/components/DayProgress.tsx:21-80 | in exact arithmetic, the "full" style (progress 100) applies iff totalTasks > 0 and completedTasks == totalTasks |
| DayProgress.ProgressBounds | src/components/DayProgress.tsx:21 | with 0 <= completed <= total, progress lies in [0, 100] |
| Categories.GroupKey | src/pages/Categories.tsx:44 | the group key is the platform's name, or "Other" when the category has no platform or its name is empty |
| Categories.FindGroup | src/pages/Categories.tsx:45 | it finds the index of the group with the key, or reports that there is none |
| Categories.Push | src/pages/Categories.tsx:45-48 | after one step the category's key has a group; a new key adds one group at the end, a known key adds none; earlier groups keep their keys and positions; the groups hold one more category in all |
| Categories.GroupCategories | src/pages/Categories.tsx:43-50 | the reduce yields at most one group per category, no key twice, and a group for every category's key |
| Categories.GroupCategoriesIsGrouping | src/pages/Categories.tsx:43-50 | the reduce yields groups with distinct keys; each group holds exactly the categories with its key, in fetch order, and is not empty; every category's key has a group |
| Categories.EachCategoryInExactlyOneGroup | src/pages/Categories.tsx:43-50 | every fetched category is listed under exactly one group, the one named by its key |
| Categories.GroupSizesSum | src/pages/Categories.tsx:43-50 | the group sizes sum to the number of categories |
| Categories.PushKeepsMembers | src/pages/Categories.tsx:45-48 | one reduce step keeps each group equal to its reference group |
| Categories.IconFor | src/pages/Categories.tsx:11-18 | the icon is Briefcase iff the name is not camera, mic, code or design (so "message", "social" and unknown names fall back to it, per line 80); the four known names get their icons |
| Categories.PlanPath | src/pages/Categories.tsx:87 | the route is "/plan/" followed by exactly the slug |
| Categories.PlanPathRoundTrip | src/pages/Categories.tsx:87 | splitting the plan prefix off a category's route gives back its slug; the router's segment matching and percent decoding are not modelled |
| Findings.StaleCompletionSurvivesToggle | src/hooks/useTasks.ts:72-98 | in a plan whose days 1 and 2 share a task id, the task completed on day 1 shows as completed on day 2; toggling its card there drops it from the cache, the day-2 delete leaves the store unchanged, and the refetch shows it completed again |
| Findings.WithoutTaskOn | src/hooks/useTasks.ts:119 | the corrected filter drops exactly the task's entries on the given day |
| Findings.DayScopedEdit | src/hooks/useTasks.ts:116-128 | the corrected optimistic edit flips membership on the current day only, and every other (task, day) pair is unchanged |
| Findings.DayScopedWrite | src/hooks/useTasks.ts:87-110 | the corrected choice issues a delete iff the task is completed on the day the delete is keyed by |
| Findings.DayScopedToggleAgreesWithStore | src/hooks/useTasks.ts:86-139 | with the cache in sync, after a successful corrected toggle, the refetched day-scoped membership equals the optimistic one and is the flip of the original |
| Findings.IsLastDayAsWritten | src/pages/Dashboard.tsx:76 | as written, the test is false when `days_data` has no `length` field, and otherwise compares with that field |
| Findings.LastDayNotRecognised | src/pages/Dashboard.tsx:76 | as written (comparing with a missing `length`), `isLastDay` is false on the last day, although the day-count test holds and the hook refuses to advance |
| Findings.DotsAsWritten | src/pages/Dashboard.tsx:102 | as written, a missing `length` field gives an empty strip, and a present one gives that many dots |
| Findings.NoCurrentDotAsWritten | src/pages/Dashboard.tsx:102 | as written (`totalDays` from a missing `length`), the strip is empty and has no current dot; with the day count it has exactly one |
| Findings.FullBarOnOpenDay | src/pages/Dashboard.tsx:103-104 | with the cache in sync, two completions of day 1 show a full bar (100) on day 2 while both of its tasks are open |
| Findings.BarPastFullOnOpenDay | src/pages/Dashboard.tsx:103-104 | with one more completion on day 2 the bar shows 150 while a task of the day is open |
| Findings.CountDoneToday | src/pages/Dashboard.tsx:103 | the corrected count never exceeds the day's tasks, and equals their number iff every task of the day is completed on that day |
| Findings.DayScopedProgressInputs | src/pages/Dashboard.tsx:100-105 | the corrected inputs keep the total, and the completed count reaches it iff every task of the current day is completed on the current day |
| Findings.DayScopedBarFullIff | src/components/DayProgress.tsx:21 | with the corrected inputs the bar is full iff the day has tasks and all are completed on the current day, and it stays within [0, 100] |

## Left out

- The hosted-store client, react-query caching, query cancellation, and the
  timing of invalidation. Remote answers are parameters. The settle refetch
  is the explicit `UseTasks.Refetch` step.
- The body of the `advance_day` procedure. It runs on the server and is not
  part of this model, so the local `current_day` after a successful advance
  (a refetch of the server row) is not modelled.
- UseTasks.Advance: the procedure's own boolean answer
  (src/integrations/supabase/types.ts:219-222) is discarded by the hook,
  which returns true after any call without an error
  (src/hooks/useTasks.ts:151-153); the model has only the call's outcome.
- RemoteStore.Fetch: the read returns rows in store order. The hosted store
  promises no order without an explicit ordering, so the list equality in
  `UseTasks.ToggleTwiceRestoresStore` holds only under that assumption. The
  membership and multiset statements do not depend on it.
- UseTasks.AdvanceStaysInBounds: it bounds only the day the client asks for.
  It does not bound the server's new `current_day`, for the reason above.
- The read-then-insert race when progress is created. It is concurrency
  against the remote store.
- The `loading` flag. It comes from the query library and is a parameter of
  `Dashboard.SelectView`.
- Fields the logic never reads. Titles, do/don't lists, timestamps, theme,
  and the user and plan ids on a cached completion are dropped.
  `days_data` is reduced to its `days` array.
- Floating point. Estimated minutes are integers, and the progress
  percentage is an exact `real`. The floating-point test `progress === 100`
  is modelled as exact equality.
- JavaScript property-lookup quirks. `iconMap` lookups of names inherited
  from `Object.prototype` (such as `constructor`) are not modelled. Neither
  is `Object.entries` listing integer-like platform names first.
- Categories.GroupCategories: the reduce indexes a plain object by platform
  name (src/pages/Categories.tsx:45-48). A name inherited from
  `Object.prototype`, such as `toString`, `constructor` or `__proto__`,
  finds an existing non-array value, and the `push` throws. The grouping
  lemmas hold for platform names that are not such inherited names.
- Categories.PlanPathRoundTrip: the page reads the slug back through the
  router's `useParams()` (src/pages/Dashboard.tsx:16), which matches one
  path segment and decodes percent escapes. The router is not modelled, so
  the round trip is only the prefix split and says nothing for slugs that
  contain `/` or `%`.
- Rendering, animations, toasts, routing and `window.location`. The
  navigation route is modelled as a string only.
- Presentation-only files: src/components/TaskCard.tsx (an expand flag),
  src/components/CompletionCelebration.tsx, src/components/DayHeader.tsx,
  src/components/LoadingSpinner.tsx, src/pages/Landing.tsx,
  src/pages/Auth.tsx and src/components/Header.tsx. Header's `getInitials`
  only upper-cases a string.
- src/integrations/supabase/types.ts (type declarations only) and
  src/types/tasks.ts. The latter's shapes are reused as the datatypes in
  `Tasks`.

## Findings

| source | as written | input that shows it | evidently intended | confidence | as-written member | corrected member |
|---|---|---|---|---|---|---|
| src/hooks/useTasks.ts:72-98 | completions are read for the whole plan, so membership ignores the day, but the delete is keyed by `current_day` | a plan whose days 1 and 2 both list task "a", one stored row for "a" on day 1, user on day 2, toggle "a": the delete for day 2 matches no row and "a" comes back as completed | membership judged on the current day, the day the delete is keyed by | medium; not executed | Findings.StaleCompletionSurvivesToggle | Findings.DayScopedToggleAgreesWithStore |
| src/pages/Dashboard.tsx:76 | `isLastDay` compares with `days_data.length`, but `days_data` is declared as an object with a `days` array (src/types/tasks.ts:43-47) | a 7-day plan with `current_day` 7: `7 >= undefined` is false | compare with the number of days, as the hook does (src/hooks/useTasks.ts:147) | high (the hook reads the days through `days_data.days`, src/hooks/useTasks.ts:161); not executed | Findings.LastDayNotRecognised | Dashboard.IsLastDayIffAdvanceRejected |
| src/pages/Dashboard.tsx:102 | `totalDays` is `days_data.length`, missing for the declared shape | any plan: `Array.from({ length: undefined })` is empty, so no dots are drawn | one dot per day of the plan | high (the hook reads the days through `days_data.days`, src/hooks/useTasks.ts:161); not executed | Findings.NoCurrentDotAsWritten | DayProgress.ExactlyOneCurrentDot |
| src/pages/Dashboard.tsx:103-104 | the completed count given to the progress bar is the length of the plan-wide completions list | day 1 lists "a" and "b", day 2 lists "c" and "d", rows for "a" and "b" on day 1, user on day 2: the bar shows 100 with both tasks open; a further row for "c" on day 2 makes it 150 | count only the current day's tasks completed on the current day | high; not executed | Findings.FullBarOnOpenDay | Findings.DayScopedBarFullIff |

=== FILE: categories.dfy ===
/** The category picker: categories grouped by platform name in
    first-appearance order, the icon chosen for each, and the page a category
    leads to. */
module Categories {
  import opened Wrappers
  import opened Tasks

  /** A category's group: its platform's name, or "Other" when it has no
      platform or the name is empty (`cat.platform?.name || 'Other'`). */
  function GroupKey(c: Category): (k: string)
    ensures c.platform.Some? && c.platform.value.name != "" ==> k == c.platform.value.name
    ensures c.platform.None? || c.platform.value.name == "" ==> k == "Other"
  {
    if c.platform.Some? && c.platform.value.name != "" then c.platform.value.name else "Other"
  }

  /** One heading of the page and the categories under it. */
  datatype Group = Group(key: string, members: seq<Category>)

  /** Index of the group with key `k`, if there is one. */
  function FindGroup(gs: seq<Group>, k: string): (r: Option<nat>)
    ensures r.Some? ==> r.value < |gs| && gs[r.value].key == k
    ensures r.None? ==> forall i :: 0 <= i < |gs| ==> gs[i].key != k
  {
    if |gs| == 0 then None
    else if gs[0].key == k then Some(0)
    else match FindGroup(gs[1..], k)
      case None => None
      case Some(i) => Some(i + 1)
  }

  /** One step of the reduce (`acc[key] = acc[key] || []; acc[key].push(c)`):
      `c` joins its key's group, which is created at the end when the key is
      new; the other groups keep their keys and positions, and the groups hold
      one more category in all. */
  function Push(gs: seq<Group>, c: Category): (r: seq<Group>)
    ensures HasKey(r, GroupKey(c))
    ensures |r| == (if HasKey(gs, GroupKey(c)) then |gs| else |gs| + 1)
    ensures forall i :: 0 <= i < |gs| ==> r[i].key == gs[i].key
    ensures TotalMembers(r) == TotalMembers(gs) + 1
  {
    var k := GroupKey(c);
    match FindGroup(gs, k)
    case Some(i) =>
      var g := Group(k, gs[i].members + [c]);
      TotalMembersUpdate(gs, i, g);
      assert gs[i := g][i].key == k;
      gs[i := g]
    case None =>
      var g := Group(k, [c]);
      TotalMembersAppend(gs, g);
      assert (gs + [g])[|gs|].key == k;
      gs + [g]
  }

  /** `categories.reduce(...)`: the groups in first-appearance order of keys,
      at most one per category, no key twice, every category's key present. */
  function GroupCategories(cs: seq<Category>): (gs: seq<Group>)
    ensures |gs| <= |cs|
    ensures DistinctKeys(gs) && KeysCovered(gs, cs)
    decreases |cs|
  {
    if |cs| == 0 then []
    else
      var prefix := cs[..|cs| - 1];
      var c := cs[|cs| - 1];
      var before := GroupCategories(prefix);
      assert prefix + [c] == cs;
      PushKeepsDistinct(before, c);
      PushKeepsCovered(before, prefix, c);
      Push(before, c)
  }

  /** The categories with key `k`, in fetch order: the reference grouping. */
  function WithKey(cs: seq<Category>, k: string): (r: seq<Category>)
    ensures forall i :: 0 <= i < |r| ==> GroupKey(r[i]) == k
  {
    if |cs| == 0 then []
    else WithKey(cs[..|cs| - 1], k) + (if GroupKey(cs[|cs| - 1]) == k then [cs[|cs| - 1]] else [])
  }

  /** No two groups share a key. */
  predicate DistinctKeys(gs: seq<Group>) {
    forall i, j :: 0 <= i < j < |gs| ==> gs[i].key != gs[j].key
  }

  /** Each group holds exactly the categories with its key, in fetch order,
      and is not empty. */
  predicate MembersMatch(gs: seq<Group>, cs: seq<Category>) {
    forall i :: 0 <= i < |gs| ==> gs[i].members == WithKey(cs, gs[i].key) && |gs[i].members| > 0
  }

  /** Every category's key has a group. */
  predicate KeysCovered(gs: seq<Group>, cs: seq<Category>) {
    forall c :: c in cs ==> HasKey(gs, GroupKey(c))
  }

  predicate HasKey(gs: seq<Group>, k: string) {
    exists i :: 0 <= i < |gs| && gs[i].key == k
  }

  /** The groups are exactly the reference grouping of `cs`. */
  predicate IsGrouping(gs: seq<Group>, cs: seq<Category>) {
    DistinctKeys(gs) && MembersMatch(gs, cs) && KeysCovered(gs, cs)
  }

  /** A key with no group has no categories. */
  lemma {:induction false} WithKeyEmpty(cs: seq<Category>, k: string)
    requires forall c :: c in cs ==> GroupKey(c) != k
    ensures WithKey(cs, k) == []
    decreases |cs|
  {
    if |cs| > 0 {
      WithKeyEmpty(cs[..|cs| - 1], k);
    }
  }

  /** Appending one category extends exactly its key's reference group. */
  lemma WithKeySnoc(cs: seq<Category>, c: Category, k: string)
    ensures WithKey(cs + [c], k) == WithKey(cs, k) + (if GroupKey(c) == k then [c] else [])
  {
    assert (cs + [c])[..|cs|] == cs;
  }

  /** One push keeps the keys distinct. */
  lemma PushKeepsDistinct(gs: seq<Group>, c: Category)
    requires DistinctKeys(gs)
    ensures DistinctKeys(Push(gs, c))
  {
  }

  /** One push keeps every key covered, the new category's included. */
  lemma PushKeepsCovered(gs: seq<Group>, cs: seq<Category>, c: Category)
    requires KeysCovered(gs, cs)
    ensures KeysCovered(Push(gs, c), cs + [c])
  {
    var gs' := Push(gs, c);
    assert forall j :: 0 <= j < |gs| ==> gs'[j].key == gs[j].key;
    assert HasKey(gs', GroupKey(c)) by {
      match FindGroup(gs, GroupKey(c))
      case Some(i) => assert gs'[i].key == GroupKey(c);
      case None => assert gs'[|gs|].key == GroupKey(c);
    }
    forall x | x in cs + [c]
      ensures HasKey(gs', GroupKey(x))
    {
      if x != c {
        assert x in cs;
        var j :| 0 <= j < |gs| && gs[j].key == GroupKey(x);
        assert gs'[j].key == GroupKey(x);
      }
    }
  }

  /** One push keeps each group equal to its reference group. */
  lemma PushKeepsMembers(gs: seq<Group>, cs: seq<Category>, c: Category)
    requires DistinctKeys(gs) && MembersMatch(gs, cs) && KeysCovered(gs, cs)
    ensures MembersMatch(Push(gs, c), cs + [c])
  {
    match FindGroup(gs, GroupKey(c))
    case Some(g) => PushOntoGroup(gs, cs, c, g);
    case None => PushNewGroup(gs, cs, c);
  }

  lemma PushOntoGroup(gs: seq<Group>, cs: seq<Category>, c: Category, g: nat)
    requires DistinctKeys(gs) && MembersMatch(gs, cs)
    requires g < |gs| && gs[g].key == GroupKey(c)
    ensures MembersMatch(gs[g := Group(GroupKey(c), gs[g].members + [c])], cs + [c])
  {
    var gs' := gs[g := Group(GroupKey(c), gs[g].members + [c])];
    forall i | 0 <= i < |gs'|
      ensures gs'[i].members == WithKey(cs + [c], gs'[i].key) && |gs'[i].members| > 0
    {
      WithKeySnoc(cs, c, gs'[i].key);
    }
  }

  lemma PushNewGroup(gs: seq<Group>, cs: seq<Category>, c: Category)
    requires MembersMatch(gs, cs) && KeysCovered(gs, cs)
    requires forall i :: 0 <= i < |gs| ==> gs[i].key != GroupKey(c)
    ensures MembersMatch(gs + [Group(GroupKey(c), [c])], cs + [c])
  {
    var gs' := gs + [Group(GroupKey(c), [c])];
    NoGroupNoMembers(gs, cs, GroupKey(c));
    forall i | 0 <= i < |gs'|
      ensures gs'[i].members == WithKey(cs + [c], gs'[i].key) && |gs'[i].members| > 0
    {
      WithKeySnoc(cs, c, gs'[i].key);
      if i < |gs| {
        assert gs'[i] == gs[i];
      }
    }
  }

  /** A key without a group has no categories. */
  lemma NoGroupNoMembers(gs: seq<Group>, cs: seq<Category>, k: string)
    requires KeysCovered(gs, cs)
    requires forall i :: 0 <= i < |gs| ==> gs[i].key != k
    ensures WithKey(cs, k) == []
  {
    forall x | x in cs
      ensures GroupKey(x) != k
    {
      assert HasKey(gs, GroupKey(x));
    }
    WithKeyEmpty(cs, k);
  }

  /** The reduce computes the reference grouping. */
  lemma {:induction false} GroupCategoriesIsGrouping(cs: seq<Category>)
    ensures IsGrouping(GroupCategories(cs), cs)
    decreases |cs|
  {
    if |cs| > 0 {
      var prefix := cs[..|cs| - 1];
      var gs := GroupCategories(prefix);
      GroupCategoriesIsGrouping(prefix);
      var c := cs[|cs| - 1];
      assert prefix + [c] == cs;
      PushKeepsMembers(gs, prefix, c);
    }
  }

  /** Total number of categories over all groups. */
  function TotalMembers(gs: seq<Group>): (n: nat) {
    if |gs| == 0 then 0 else TotalMembers(gs[..|gs| - 1]) + |gs[|gs| - 1].members|
  }

  lemma {:induction false} TotalMembersAppend(gs: seq<Group>, g: Group)
    ensures TotalMembers(gs + [g]) == TotalMembers(gs) + |g.members|
  {
    assert (gs + [g])[..|gs|] == gs;
  }

  lemma {:induction false} TotalMembersUpdate(gs: seq<Group>, i: int, g: Group)
    requires 0 <= i < |gs|
    ensures TotalMembers(gs[i := g]) == TotalMembers(gs) - |gs[i].members| + |g.members|
    decreases |gs|
  {
    var n := |gs| - 1;
    if i == n {
      assert gs[i := g][..n] == gs[..n];
    } else {
      assert gs[i := g][..n] == gs[..n][i := g];
      TotalMembersUpdate(gs[..n], i, g);
    }
  }

  /** Group sizes add up to the number of categories. */
  lemma {:induction false} GroupSizesSum(cs: seq<Category>)
    ensures TotalMembers(GroupCategories(cs)) == |cs|
    decreases |cs|
  {
    if |cs| > 0 {
      GroupSizesSum(cs[..|cs| - 1]);
    }
  }

  /** The index of the one group holding `c`. */
  predicate OnlyGroupOf(gs: seq<Group>, c: Category, i: int) {
    0 <= i < |gs| && c in gs[i].members
    && forall j :: 0 <= j < |gs| && c in gs[j].members ==> j == i
  }

  lemma PlacedOnce(gs: seq<Group>, cs: seq<Category>, c: Category) returns (i: int)
    requires IsGrouping(gs, cs) && c in cs
    ensures OnlyGroupOf(gs, c, i)
  {
    assert HasKey(gs, GroupKey(c));
    i :| 0 <= i < |gs| && gs[i].key == GroupKey(c);
    WithKeyContains(cs, c);
    assert gs[i].members == WithKey(cs, gs[i].key);
    forall j | 0 <= j < |gs| && c in gs[j].members
      ensures j == i
    {
      var m := gs[j].members;
      assert m == WithKey(cs, gs[j].key);
      var idx :| 0 <= idx < |m| && m[idx] == c;
      assert GroupKey(c) == gs[j].key;
    }
  }

  /** Every fetched category is listed under exactly one group: the one named
      by its key. */
  lemma EachCategoryInExactlyOneGroup(cs: seq<Category>, c: Category)
    requires c in cs
    ensures exists i :: OnlyGroupOf(GroupCategories(cs), c, i) && GroupCategories(cs)[i].key == GroupKey(c)
  {
    var gs := GroupCategories(cs);
    GroupCategoriesIsGrouping(cs);
    var i := PlacedOnce(gs, cs, c);
    var m := gs[i].members;
    assert m == WithKey(cs, gs[i].key);
    var idx :| 0 <= idx < |m| && m[idx] == c;
    assert gs[i].key == GroupKey(c);
  }

  lemma {:induction false} WithKeyContains(cs: seq<Category>, c: Category)
    requires c in cs
    ensures c in WithKey(cs, GroupKey(c))
    decreases |cs|
  {
    var n := |cs| - 1;
    if cs[n] != c {
      assert c in cs[..n] by {
        assert cs == cs[..n] + [cs[n]];
      }
      WithKeyContains(cs[..n], c);
    }
  }

  // ---------------------------------------------------------------- icons

  datatype Icon = Camera | Mic | Briefcase | Code | Palette

  /** `iconMap[name] || Briefcase`: known names map to their icon, "message"
      and "social" deliberately map to Briefcase, anything else falls back. */
  function IconFor(name: string): (icon: Icon)
    ensures icon == Briefcase <==> name !in ["camera", "mic", "code", "design"]
    ensures name == "camera" ==> icon == Camera
    ensures name == "mic" ==> icon == Mic
    ensures name == "code" ==> icon == Code
    ensures name == "design" ==> icon == Palette
  {
    match name
    case "camera" => Camera
    case "mic" => Mic
    case "message" => Briefcase
    case "social" => Briefcase
    case "code" => Code
    case "design" => Palette
    case _ => Briefcase
  }

  // ---------------------------------------------------------------- navigation

  const PlanPrefix := "/plan/"

  /** The route a category card navigates to. */
  function PlanPath(slug: string): (path: string)
    ensures |path| == |PlanPrefix| + |slug|
    ensures path[..|PlanPrefix|] == PlanPrefix && path[|PlanPrefix|..] == slug
  {
    PlanPrefix + slug
  }

  /** The slug the route carries, for paths under the plan prefix. */
  function SlugOf(path: string): (slug: Option<string>)
    ensures slug.Some? <==> |path| >= |PlanPrefix| && path[..|PlanPrefix|] == PlanPrefix
  {
    if |path| >= |PlanPrefix| && path[..|PlanPrefix|] == PlanPrefix then Some(path[|PlanPrefix|..]) else None
  }

  /** Splitting the plan prefix off a category's route gives back the
      category's slug. The router's own matching (one path segment, percent
      decoding) is not modelled, so this says nothing about slugs holding
      `/` or `%`. */
  lemma PlanPathRoundTrip(slug: string)
    ensures SlugOf(PlanPath(slug)) == Some(slug)
  {
  }
}

=== FILE: completions.dfy ===
/** The cached list of task completions and the optimistic edit applied to it
    when a task is toggled. Completion is existence-based: a task is complete
    when some entry carries its id, whatever day that entry was recorded on. */
module Completions {
  import opened Wrappers
  import opened Tasks

  /** Membership by task id: `completions.some(t => t.task_id === taskId)`. */
  function HasTask(cs: seq<TaskCompletion>, t: TaskId): (b: bool)
    ensures b <==> exists i :: 0 <= i < |cs| && cs[i].taskId == t
  {
    if |cs| == 0 then false else cs[0].taskId == t || HasTask(cs[1..], t)
  }

  /** Day-scoped membership: some entry carries `t` and was recorded on day `d`. */
  predicate HasTaskOn(cs: seq<TaskCompletion>, t: TaskId, d: int) {
    exists i :: 0 <= i < |cs| && cs[i].taskId == t && cs[i].dayNumber == Some(d)
  }

  /** The entries whose id differs from `t`, in their original order
      (`completions.filter(c => c.task_id !== t)`). */
  function WithoutTask(cs: seq<TaskCompletion>, t: TaskId): (r: seq<TaskCompletion>)
    ensures |r| <= |cs|
    ensures forall i :: 0 <= i < |r| ==> r[i].taskId != t && r[i] in cs
    ensures forall c :: c in cs && c.taskId != t ==> c in r
  {
    if |cs| == 0 then []
    else (if cs[0].taskId != t then [cs[0]] else []) + WithoutTask(cs[1..], t)
  }

  /** Filtering distributes over concatenation, so kept entries keep their order. */
  lemma {:induction false} WithoutTaskAppend(a: seq<TaskCompletion>, b: seq<TaskCompletion>, t: TaskId)
    ensures WithoutTask(a + b, t) == WithoutTask(a, t) + WithoutTask(b, t)
  {
    if |a| == 0 {
      assert a + b == b;
    } else {
      assert (a + b)[1..] == a[1..] + b;
      WithoutTaskAppend(a[1..], b, t);
    }
  }

  /** Filtering out an id some entry carries drops at least one entry. */
  lemma {:induction false} WithoutPresentTaskShrinks(cs: seq<TaskCompletion>, t: TaskId)
    requires HasTask(cs, t)
    ensures |WithoutTask(cs, t)| < |cs|
  {
    if cs[0].taskId != t {
      WithoutPresentTaskShrinks(cs[1..], t);
    } else {
      assert |WithoutTask(cs[1..], t)| <= |cs[1..]|;
    }
  }

  /** Filtering out an id nobody carries changes nothing. */
  lemma {:induction false} WithoutAbsentTask(cs: seq<TaskCompletion>, t: TaskId)
    requires !HasTask(cs, t)
    ensures WithoutTask(cs, t) == cs
  {
    if |cs| > 0 {
      assert forall i :: 0 <= i < |cs[1..]| ==> cs[1..][i] == cs[i + 1];
      WithoutAbsentTask(cs[1..], t);
      assert cs == [cs[0]] + cs[1..];
    }
  }

  /** The optimistic edit of the cache when `t` is toggled: drop every entry
      for `t` if there is one, otherwise append one entry for `t` on `day`. */
  function OptimisticToggle(cs: seq<TaskCompletion>, t: TaskId, day: Option<int>): (r: seq<TaskCompletion>)
    ensures HasTask(r, t) <==> !HasTask(cs, t)
    ensures forall u :: u != t ==> (HasTask(r, u) <==> HasTask(cs, u))
    ensures HasTask(cs, t) ==> r == WithoutTask(cs, t)
    ensures !HasTask(cs, t) ==>
      |r| == |cs| + 1 && r[..|cs|] == cs && r[|cs|] == TaskCompletion(t, day)
  {
    if HasTask(cs, t) then WithoutTask(cs, t)
    else
      var r := cs + [TaskCompletion(t, day)];
      assert r[|cs|].taskId == t;
      assert forall i :: 0 <= i < |cs| ==> r[i] == cs[i];
      r
  }

  /** Toggling the same task twice restores every task's membership. */
  lemma ToggleTwiceRestoresMembership(cs: seq<TaskCompletion>, t: TaskId, d1: Option<int>, d2: Option<int>, u: TaskId)
    ensures HasTask(OptimisticToggle(OptimisticToggle(cs, t, d1), t, d2), u) <==> HasTask(cs, u)
  {
  }

  /** Toggling twice restores membership but not the list itself: duplicate
      entries for a task are all dropped, and the re-added entry carries the
      day of the second toggle. */
  lemma ToggleTwiceMayChangeList()
    ensures exists cs: seq<TaskCompletion>, t: TaskId, d: Option<int> ::
      OptimisticToggle(OptimisticToggle(cs, t, d), t, d) != cs
  {
    var c := TaskCompletion("a", Some(1));
    var cs := [c, c];
    assert HasTask(cs, "a");
    var once := OptimisticToggle(cs, "a", Some(2));
    assert once == [];
    var twice := OptimisticToggle(once, "a", Some(2));
    assert |twice| == 1 != |cs|;
  }
}

=== FILE: dashboard.dfy ===
/** The day page: which view it renders, the day's total estimated time, the
    task cards, the last-day test, and the celebration latch driven by two
    effects and the "next day" handler. */
module Dashboard {
  import opened Wrappers
  import opened Tasks
  import opened Completions
  import opened UseTasks

  // ---------------------------------------------------------------- view

  datatype View = Spinner | NoPlan | DayView

  /** Loading wins; after loading, the no-plan view is chosen exactly when the
      plan, the current day or the progress is absent. */
  function SelectView(loading: bool, plan: Option<WeeklyPlan>, current: Option<DayData>,
                      progress: Option<UserProgress>): (v: View)
    ensures loading <==> v == Spinner
    ensures !loading ==> (v == NoPlan <==> plan.None? || current.None? || progress.None?)
    ensures v == DayView ==> plan.Some? && current.Some? && progress.Some?
  {
    if loading then Spinner
    else if plan.None? || current.None? || progress.None? then NoPlan
    else DayView
  }

  /** Without a plan, the hook's current day is absent, so the page shows the
      no-plan view once loading is over. */
  lemma NoPlanWithoutPlan(progress: Option<UserProgress>)
    ensures SelectView(false, None, CurrentDay(None, progress), progress) == NoPlan
  {
  }

  // ---------------------------------------------------------------- time

  /** `tasks.reduce((acc, t) => acc + t.estimated_time_min, 0)`, a left fold:
      0 for an empty day, and never negative when no estimate is. */
  function TotalTime(tasks: seq<Task>): (total: int)
    ensures |tasks| == 0 ==> total == 0
    ensures (forall j :: 0 <= j < |tasks| ==> tasks[j].minutes >= 0) ==> total >= 0
  {
    if |tasks| == 0 then 0
    else
      var front := tasks[..|tasks| - 1];
      assert forall j :: 0 <= j < |front| ==> front[j] == tasks[j];
      TotalTime(front) + tasks[|tasks| - 1].minutes
  }

  /** The total of a concatenation is the sum of the totals. */
  lemma {:induction false} TotalTimeAppend(a: seq<Task>, b: seq<Task>)
    ensures TotalTime(a + b) == TotalTime(a) + TotalTime(b)
    decreases |b|
  {
    if |b| == 0 {
      assert a + b == a;
    } else {
      assert (a + b)[..|a + b| - 1] == a + b[..|b| - 1];
      TotalTimeAppend(a, b[..|b| - 1]);
    }
  }

  /** Summing task by task from the front gives the same total. */
  lemma {:induction false} TotalTimeFromFront(tasks: seq<Task>)
    requires |tasks| > 0
    ensures TotalTime(tasks) == tasks[0].minutes + TotalTime(tasks[1..])
  {
    assert tasks == [tasks[0]] + tasks[1..];
    TotalTimeAppend([tasks[0]], tasks[1..]);
    assert [tasks[0]][..0] == [];
  }

  /** With non-negative estimates the total is at least each task's estimate. */
  lemma {:induction false} TotalTimeBoundsEachTask(tasks: seq<Task>, i: int)
    requires forall j :: 0 <= j < |tasks| ==> tasks[j].minutes >= 0
    requires 0 <= i < |tasks|
    ensures tasks[i].minutes <= TotalTime(tasks)
    decreases |tasks|
  {
    var n := |tasks| - 1;
    assert forall j :: 0 <= j < n ==> tasks[..n][j] == tasks[j];
    if i < n {
      TotalTimeBoundsEachTask(tasks[..n], i);
    }
  }

  // ---------------------------------------------------------------- cards

  /** One rendered task card: its task, its position and its checkbox state. */
  datatype Card = Card(taskId: TaskId, index: nat, isCompleted: bool)

  /** `currentDay.tasks.map(...)`: one card per task, in order. */
  function TaskCards(tasks: seq<Task>, cs: seq<TaskCompletion>): (cards: seq<Card>)
    ensures |cards| == |tasks|
    ensures forall i :: 0 <= i < |tasks| ==>
      cards[i].taskId == tasks[i].id && cards[i].index == i && (cards[i].isCompleted <==> HasTask(cs, tasks[i].id))
  {
    seq(|tasks|, i requires 0 <= i < |tasks| => Card(tasks[i].id, i, HasTask(cs, tasks[i].id)))
  }

  /** Every card is checked exactly when the hook reports the day complete. */
  lemma CardsAllCheckedIffAllCompleted(d: DayData, cs: seq<TaskCompletion>)
    ensures (forall i :: 0 <= i < |TaskCards(d.tasks, cs)| ==> TaskCards(d.tasks, cs)[i].isCompleted)
      <==> AllTasksCompleted(Some(d), cs)
  {
    var cards := TaskCards(d.tasks, cs);
    assert forall i :: 0 <= i < |cards| ==> (cards[i].isCompleted <==> HasTask(cs, d.tasks[i].id));
  }

  // ---------------------------------------------------------------- progress bar

  /** The tasks of a day carry distinct ids (each is a card's React key). */
  predicate DistinctIds(tasks: seq<Task>) {
    forall i, j :: 0 <= i < j < |tasks| ==> tasks[i].id != tasks[j].id
  }

  /** A list that holds every id of a task list with distinct ids has at least
      as many entries as the task list. */
  lemma {:induction false} CoveredTasksBound(tasks: seq<Task>, cs: seq<TaskCompletion>)
    requires DistinctIds(tasks)
    requires forall i :: 0 <= i < |tasks| ==> HasTask(cs, tasks[i].id)
    ensures |tasks| <= |cs|
    decreases |tasks|
  {
    if |tasks| > 0 {
      var n := |tasks| - 1;
      var front := tasks[..n];
      var rest := WithoutTask(cs, tasks[n].id);
      forall i | 0 <= i < |front|
        ensures HasTask(rest, front[i].id)
      {
        assert front[i] == tasks[i] && tasks[i].id != tasks[n].id;
        var k :| 0 <= k < |cs| && cs[k].taskId == tasks[i].id;
        assert cs[k] in rest;
        var m :| 0 <= m < |rest| && rest[m] == cs[k];
      }
      WithoutPresentTaskShrinks(cs, tasks[n].id);
      CoveredTasksBound(front, rest);
    }
  }

  /** The two counts the page hands to the progress bar. */
  datatype BarInputs = BarInputs(completed: nat, total: nat)

  /** `completedTasks={completedTasks.length}` and
      `totalTasks={currentDay.tasks.length}`: the completed count is the length
      of the whole cached list, whatever the days of its entries. A complete
      day whose tasks have distinct ids therefore fills the bar. */
  function ProgressInputs(s: HookState): (b: BarInputs)
    ensures b.completed == |CompletedTasks(s)|
    ensures CurrentDay(s.plan, s.progress).None? ==> b.total == 0
    ensures CurrentDay(s.plan, s.progress).Some? ==> b.total == |CurrentDay(s.plan, s.progress).value.tasks|
    ensures (CurrentDay(s.plan, s.progress).Some? && DistinctIds(CurrentDay(s.plan, s.progress).value.tasks)
             && AllTasksCompleted(CurrentDay(s.plan, s.progress), CompletedTasks(s))) ==> b.completed >= b.total
  {
    var current := CurrentDay(s.plan, s.progress);
    var total := if current.Some? then |current.value.tasks| else 0;
    assert current.Some? && DistinctIds(current.value.tasks) && AllTasksCompleted(current, CompletedTasks(s))
      ==> |CompletedTasks(s)| >= total by {
      if current.Some? && DistinctIds(current.value.tasks) && AllTasksCompleted(current, CompletedTasks(s)) {
        CoveredTasksBound(current.value.tasks, CompletedTasks(s));
      }
    }
    BarInputs(|CompletedTasks(s)|, total)
  }

  // ---------------------------------------------------------------- last day

  /** `isLastDay`, stated against the plan's number of days: there is no next
      day within the plan. */
  function IsLastDay(currentDay: int, dayCount: int): (last: bool)
    ensures last <==> !(currentDay + 1 <= dayCount)
  {
    currentDay >= dayCount
  }

  /** The page's last-day test and the hook's bound check agree: on the last
      day (or past it) advancing makes no call and yields false. */
  lemma IsLastDayIffAdvanceRejected(s: HookState, rpc: Outcome)
    requires Ready(s)
    ensures IsLastDay(s.progress.value.currentDay, |s.plan.value.days|) <==> !Advance(s, rpc).called
    ensures IsLastDay(s.progress.value.currentDay, |s.plan.value.days|) ==> Advance(s, rpc).value == Ok(false)
  {
  }

  // ---------------------------------------------------------------- celebration

  /** The dependencies the first effect last ran with. */
  datatype Deps = Deps(allDone: bool, shownAtRender: bool, day: Option<DayData>)

  /** The two celebration flags, plus the dependency values each effect saw at
      the previous commit (`None` before the first commit). */
  datatype Latch = Latch(show: bool, shown: bool, openDeps: Option<Deps>, resetDeps: Option<Option<int>>)

  /** The values a render reads from the hook. */
  datatype Render = Render(allDone: bool, current: Option<DayData>, progressDay: Option<int>)

  const Initial := Latch(false, false, None, None)

  /** One commit: each effect runs when one of its dependencies differs from
      the previous commit's, in declaration order (open first, then reset);
      each reads the flags as they were at render time. */
  function Commit(l: Latch, r: Render): (l': Latch)
    ensures l'.openDeps == Some(Deps(r.allDone, l.shown, r.current)) && l'.resetDeps == Some(r.progressDay)
    ensures l.resetDeps != Some(r.progressDay) ==> !l'.show && !l'.shown
    ensures !l.show && l'.show ==>
      r.allDone && r.current.Some? && !l.shown && l.resetDeps == Some(r.progressDay)
    ensures !l.show && l'.show ==> l'.shown
    ensures l.resetDeps == Some(r.progressDay) && l.shown ==> l'.shown && l'.show == l.show
    ensures (l.openDeps != Some(Deps(r.allDone, l.shown, r.current)) && r.allDone && !l.shown
             && r.current.Some? && l.resetDeps == Some(r.progressDay)) ==> l'.show && l'.shown
    ensures (l.openDeps == Some(Deps(r.allDone, l.shown, r.current)) && l.resetDeps == Some(r.progressDay))
            ==> l'.show == l.show && l'.shown == l.shown
  {
    var deps := Deps(r.allDone, l.shown, r.current);
    var afterOpen := if l.openDeps != Some(deps) && r.allDone && !l.shown && r.current.Some?
      then l.(show := true, shown := true) else l;
    var reset := if l.resetDeps != Some(r.progressDay) then afterOpen.(show := false, shown := false) else afterOpen;
    reset.(openDeps := Some(deps), resetDeps := Some(r.progressDay))
  }

  /** The celebration opens in this commit. */
  predicate Opens(l: Latch, r: Render) {
    !l.show && Commit(l, r).show
  }

  /** How many times the celebration opens over a run of commits. */
  function OpenCount(l: Latch, rs: seq<Render>): (n: nat)
    ensures n <= |rs|
    decreases |rs|
  {
    if |rs| == 0 then 0
    else (if Opens(l, rs[0]) then 1 else 0) + OpenCount(Commit(l, rs[0]), rs[1..])
  }

  /** Once shown on a day, the celebration never opens again that day. */
  lemma {:induction false} NoReopenOnceShown(l: Latch, rs: seq<Render>, day: Option<int>)
    requires l.shown && l.resetDeps == Some(day)
    requires forall i :: 0 <= i < |rs| ==> rs[i].progressDay == day
    ensures OpenCount(l, rs) == 0
    decreases |rs|
  {
    if |rs| > 0 {
      NoReopenOnceShown(Commit(l, rs[0]), rs[1..], day);
    }
  }

  /** Over any run of commits on one day, the celebration opens at most once. */
  lemma {:induction false} OpensAtMostOncePerDay(l: Latch, rs: seq<Render>, day: Option<int>)
    requires l.resetDeps == Some(day)
    requires forall i :: 0 <= i < |rs| ==> rs[i].progressDay == day
    ensures OpenCount(l, rs) <= 1
    decreases |rs|
  {
    if |rs| > 0 {
      var l' := Commit(l, rs[0]);
      if Opens(l, rs[0]) {
        NoReopenOnceShown(l', rs[1..], day);
      } else {
        OpensAtMostOncePerDay(l', rs[1..], day);
      }
    }
  }

  /** Completing the one open task of the day, on a day whose celebration has
      not been shown, opens the celebration at the next commit. */
  lemma CompletingDayOpensCelebration(l: Latch, s: HookState, t: TaskId, remote: Outcome)
    requires !Ready(s) || remote == Success
    requires CurrentDay(s.plan, s.progress).Some?
    requires !HasTask(CompletedTasks(s), t)
    requires var tasks := CurrentDay(s.plan, s.progress).value.tasks;
      forall i :: 0 <= i < |tasks| && tasks[i].id != t ==> HasTask(CompletedTasks(s), tasks[i].id)
    requires !l.show && !l.shown && l.resetDeps == Some(ProgressDay(s.progress))
    requires l.openDeps != Some(Deps(true, false, CurrentDay(s.plan, s.progress)))
    ensures var after := Toggle(s, t, remote).state;
      Opens(l, Render(AllTasksCompleted(CurrentDay(after.plan, after.progress), CompletedTasks(after)),
                      CurrentDay(after.plan, after.progress), ProgressDay(after.progress)))
  {
    CompletingLastTaskCompletesDay(s, t, remote);
  }

  /** Data that arrives all at once with the day already complete does not
      open the celebration: the reset effect runs after the open effect in the
      same commit. */
  lemma FirstCommitEndsClosed(r: Render)
    ensures !Commit(Initial, r).show && !Commit(Initial, r).shown
  {
  }

  /** `handleNextDay`: a true result hides the celebration; false or an error
      leaves the flags as they were. */
  function HandleNextDay(l: Latch, result: Result<bool, RemoteError>): (l': Latch)
    ensures result == Ok(true) ==> !l'.show && l'.shown == l.shown
    ensures result != Ok(true) ==> l' == l
  {
    if result == Ok(true) then l.(show := false) else l
  }

  /** From the last day the handler leaves the celebration open. */
  lemma NextDayOnLastDayKeepsCelebration(l: Latch, s: HookState, rpc: Outcome)
    requires Ready(s) && IsLastDay(s.progress.value.currentDay, |s.plan.value.days|)
    ensures HandleNextDay(l, Advance(s, rpc).value) == l
  {
  }
}

=== FILE: day_progress.dfy ===
/** The week strip and the day's progress bar: one dot per day, each classed
    as past, current and/or selected, and the completed/total percentage. */
module DayProgress {
  import opened Wrappers

  /** One dot of the strip and the styles it gets. `plain` is the muted style,
      applied when the dot is neither past nor selected. */
  datatype Dot = Dot(number: int, isPast: bool, isCurrent: bool, isSelected: bool, plain: bool)

  /** The length `Array.from({ length: n })` produces for an integer `n`:
      negative lengths become zero. */
  function ArrayLength(n: int): (len: nat) {
    if n < 0 then 0 else n
  }

  /** The dot numbered `number`, classed against the current and selected day. */
  function DotAt(number: int, currentDay: int, selectedDay: Option<int>): (dot: Dot) {
    var past := number < currentDay;
    var selected := selectedDay == Some(number);
    Dot(number, past, number == currentDay, selected, !past && !selected)
  }

  /** The dots numbered 1..totalDays, in order, classified against the current
      and the selected day. */
  function Dots(totalDays: int, currentDay: int, selectedDay: Option<int>): (dots: seq<Dot>)
    ensures |dots| == ArrayLength(totalDays)
    ensures forall i :: 0 <= i < |dots| ==> dots[i].number == i + 1
    ensures forall i :: 0 <= i < |dots| ==>
      (dots[i].isPast <==> dots[i].number < currentDay) && (dots[i].isCurrent <==> dots[i].number == currentDay)
    ensures forall i :: 0 <= i < |dots| ==> (dots[i].isSelected <==> selectedDay == Some(dots[i].number))
    ensures forall i :: 0 <= i < |dots| ==> (dots[i].plain <==> !dots[i].isPast && !dots[i].isSelected)
  {
    seq(ArrayLength(totalDays), i requires 0 <= i => DotAt(i + 1, currentDay, selectedDay))
  }

  /** No dot is both past and current. */
  lemma PastAndCurrentExclusive(totalDays: int, currentDay: int, selectedDay: Option<int>, i: int)
    requires 0 <= i < |Dots(totalDays, currentDay, selectedDay)|
    ensures !(Dots(totalDays, currentDay, selectedDay)[i].isPast && Dots(totalDays, currentDay, selectedDay)[i].isCurrent)
  {
  }

  /** The number of dots classed current. */
  function CountCurrent(dots: seq<Dot>): (n: nat)
    ensures n <= |dots|
  {
    if |dots| == 0 then 0 else (if dots[0].isCurrent then 1 else 0) + CountCurrent(dots[1..])
  }

  /** The number of dots classed selected. */
  function CountSelected(dots: seq<Dot>): (n: nat)
    ensures n <= |dots|
  {
    if |dots| == 0 then 0 else (if dots[0].isSelected then 1 else 0) + CountSelected(dots[1..])
  }

  /** A strip whose dot numbers strictly increase. */
  predicate Increasing(dots: seq<Dot>) {
    forall i, j :: 0 <= i < j < |dots| ==> dots[i].number < dots[j].number
  }

  /** In an increasing strip, the count of current dots is one when some dot
      carries the current day and zero otherwise. */
  lemma {:induction false} CountCurrentIncreasing(dots: seq<Dot>, currentDay: int)
    requires Increasing(dots)
    requires forall i :: 0 <= i < |dots| ==> (dots[i].isCurrent <==> dots[i].number == currentDay)
    ensures CountCurrent(dots) == (if exists i :: 0 <= i < |dots| && dots[i].number == currentDay then 1 else 0)
  {
    if |dots| > 0 {
      var rest := dots[1..];
      assert forall i :: 0 <= i < |rest| ==> rest[i] == dots[i + 1];
      CountCurrentIncreasing(rest, currentDay);
      if dots[0].number == currentDay {
        assert forall i :: 0 <= i < |rest| ==> rest[i].number > currentDay;
      } else {
        assert (exists i :: 0 <= i < |dots| && dots[i].number == currentDay)
          <==> (exists i :: 0 <= i < |rest| && rest[i].number == currentDay);
      }
    }
  }

  /** In an increasing strip, at most one dot is selected. */
  lemma {:induction false} CountSelectedIncreasing(dots: seq<Dot>, selectedDay: Option<int>)
    requires Increasing(dots)
    requires forall i :: 0 <= i < |dots| ==> (dots[i].isSelected <==> selectedDay == Some(dots[i].number))
    ensures CountSelected(dots) <= 1
    ensures selectedDay.None? ==> CountSelected(dots) == 0
  {
    if |dots| > 0 {
      var rest := dots[1..];
      assert forall i :: 0 <= i < |rest| ==> rest[i] == dots[i + 1];
      CountSelectedIncreasing(rest, selectedDay);
      if dots[0].isSelected {
        assert forall i :: 0 <= i < |rest| ==> !rest[i].isSelected;
        CountSelectedNone(rest);
      }
    }
  }

  lemma {:induction false} CountSelectedNone(dots: seq<Dot>)
    requires forall i :: 0 <= i < |dots| ==> !dots[i].isSelected
    ensures CountSelected(dots) == 0
  {
    if |dots| > 0 {
      var rest := dots[1..];
      assert forall i :: 0 <= i < |rest| ==> rest[i] == dots[i + 1];
      CountSelectedNone(rest);
    }
  }

  /** At most one dot is current, and exactly one when the current day lies
      in 1..totalDays. */
  lemma ExactlyOneCurrentDot(totalDays: int, currentDay: int, selectedDay: Option<int>)
    ensures CountCurrent(Dots(totalDays, currentDay, selectedDay)) <= 1
    ensures CountCurrent(Dots(totalDays, currentDay, selectedDay)) == 1 <==> 1 <= currentDay <= totalDays
  {
    var dots := Dots(totalDays, currentDay, selectedDay);
    CountCurrentIncreasing(dots, currentDay);
    if 1 <= currentDay <= totalDays {
      assert dots[currentDay - 1].number == currentDay;
    }
  }

  /** At most one dot is selected, and none when no day is selected. */
  lemma AtMostOneSelectedDot(totalDays: int, currentDay: int, selectedDay: Option<int>)
    ensures CountSelected(Dots(totalDays, currentDay, selectedDay)) <= 1
    ensures selectedDay.None? ==> CountSelected(Dots(totalDays, currentDay, selectedDay)) == 0
  {
    CountSelectedIncreasing(Dots(totalDays, currentDay, selectedDay), selectedDay);
  }

  /** Clicking a dot calls the optional handler with the dot's own number. */
  function Click(dot: Dot, hasHandler: bool): (arg: Option<int>)
    ensures arg.Some? <==> hasHandler
    ensures arg.Some? ==> arg.value == dot.number
  {
    if hasHandler then Some(dot.number) else None
  }

  /** Clicking the i-th dot selects day i + 1. */
  lemma ClickSelectsItsDay(totalDays: int, currentDay: int, selectedDay: Option<int>, i: int)
    requires 0 <= i < |Dots(totalDays, currentDay, selectedDay)|
    ensures Click(Dots(totalDays, currentDay, selectedDay)[i], true) == Some(i + 1)
  {
  }

  /** The progress percentage, in exact arithmetic: zero without tasks. */
  function Progress(completedTasks: int, totalTasks: int): (p: real)
    ensures totalTasks <= 0 || completedTasks == 0 ==> p == 0.0
  {
    if totalTasks > 0 then (completedTasks as real / totalTasks as real) * 100.0 else 0.0
  }

  /** The "full" styling applies exactly when there are tasks and all are done. */
  lemma ProgressFullIff(completedTasks: int, totalTasks: int)
    ensures Progress(completedTasks, totalTasks) == 100.0 <==> totalTasks > 0 && completedTasks == totalTasks
  {
    if totalTasks > 0 {
      var t := totalTasks as real;
      assert Progress(completedTasks, totalTasks) * t == completedTasks as real * 100.0;
    }
  }

  /** With 0 <= completed <= total the percentage lies in [0, 100]. */
  lemma ProgressBounds(completedTasks: int, totalTasks: int)
    requires 0 <= completedTasks <= totalTasks
    ensures 0.0 <= Progress(completedTasks, totalTasks) <= 100.0
  {
    if totalTasks > 0 {
      var t := totalTasks as real;
      assert completedTasks as real / t <= 1.0;
    }
  }
}

=== FILE: findings.dfy ===
/** Discrepancies between what the code does and what it evidently intends,
    each as the behaviour as written next to a corrected definition with the
    intended property proved. */
module Findings {
  import opened Wrappers
  import opened Tasks
  import opened Completions
  import opened RemoteStore
  import opened UseTasks
  import opened Dashboard
  import opened DayProgress

  // ------------------------------------------------------------------------
  // 1. Membership is plan-wide but the delete is day-scoped.

  /** As written: in a plan whose days 1 and 2 share the task id "a", the
      task completed on day 1 shows as completed on day 2, so toggling its
      card on day 2 removes it from the cache and issues a delete for day 2
      that matches no row; the refetch brings the completion back. */
  lemma StaleCompletionSurvivesToggle()
    ensures var s := HookState(Some("u"), Some(WeeklyPlan("p", [DayData(1, [Task("a", 10)]), DayData(2, [Task("a", 10)])])),
                               Some(UserProgress("u", "p", 2)), Some([TaskCompletion("a", Some(1))]));
      var store := [Row("u", "p", 1, "a")];
      var r := Toggle(s, "a", Success);
      && InSync(s, store)
      && CurrentDay(s.plan, s.progress) == Some(DayData(2, [Task("a", 10)]))
      && HasTask(CompletedTasks(s), "a")
      && r.write == Some(Delete(Key("u", "p", 2, "a")))
      && !HasTask(CompletedTasks(r.state), "a")
      && Apply(store, r.write.value) == store
      && HasTask(CompletedTasks(Refetch(r.state, Apply(store, r.write.value), Success)), "a")
  {
    var store := [Row("u", "p", 1, "a")];
    var k := Key("u", "p", 2, "a");
    assert Fetch(store, "u", "p") == [TaskCompletion("a", Some(1))];
    assert DeleteRows(store, k) == store by {
      DeleteUnmatched(store, k);
    }
  }

  /** The entries that are not `t` recorded on day `d`, in order. */
  function WithoutTaskOn(cs: seq<TaskCompletion>, t: TaskId, d: int): (r: seq<TaskCompletion>)
    ensures !HasTaskOn(r, t, d)
    ensures forall u, e :: (u != t || e != d) ==> (HasTaskOn(r, u, e) <==> HasTaskOn(cs, u, e))
  {
    if |cs| == 0 then []
    else
      var rest := WithoutTaskOn(cs[1..], t, d);
      var head := cs[0];
      assert forall u, e :: HasTaskOn(cs, u, e) <==> (head.taskId == u && head.dayNumber == Some(e)) || HasTaskOn(cs[1..], u, e) by {
        assert forall i :: 0 <= i < |cs[1..]| ==> cs[1..][i] == cs[i + 1];
      }
      if head.taskId == t && head.dayNumber == Some(d) then rest
      else
        var r := [head] + rest;
        assert r[0] == head;
        assert forall i :: 1 <= i < |r| ==> r[i] == rest[i - 1];
        assert forall i :: 0 <= i < |rest| ==> r[i + 1] == rest[i];
        assert forall u, e :: HasTaskOn(r, u, e) <==> (head.taskId == u && head.dayNumber == Some(e)) || HasTaskOn(rest, u, e);
        r
  }

  /** Corrected optimistic edit: membership is judged on the current day only. */
  function DayScopedEdit(cs: seq<TaskCompletion>, t: TaskId, d: int): (r: seq<TaskCompletion>)
    ensures HasTaskOn(r, t, d) <==> !HasTaskOn(cs, t, d)
    ensures forall u, e :: (u != t || e != d) ==> (HasTaskOn(r, u, e) <==> HasTaskOn(cs, u, e))
  {
    if HasTaskOn(cs, t, d) then WithoutTaskOn(cs, t, d)
    else
      var r := cs + [TaskCompletion(t, Some(d))];
      assert r[|cs|].taskId == t && r[|cs|].dayNumber == Some(d);
      assert forall i :: 0 <= i < |cs| ==> r[i] == cs[i];
      r
  }

  /** Corrected write choice: a delete exactly when the task is completed on
      the current day, the same day the delete is keyed by. */
  function DayScopedWrite(s: HookState, t: TaskId): (w: Option<Write>)
    ensures w.None? <==> !Ready(s)
    ensures w.Some? ==> w.value.key == Key(s.user.value, s.plan.value.id, s.progress.value.currentDay, t)
    ensures w.Some? ==> (w.value.Delete? <==> HasTaskOn(CompletedTasks(s), t, s.progress.value.currentDay))
  {
    if !Ready(s) then None
    else
      var d := s.progress.value.currentDay;
      var k := Key(s.user.value, s.plan.value.id, d, t);
      if HasTaskOn(CompletedTasks(s), t, d) then Some(Delete(k)) else Some(Insert(k))
  }

  /** Corrected: with the cache in sync, a successful day-scoped toggle and the
      store agree after the refetch, with no condition on earlier days' rows. */
  lemma DayScopedToggleAgreesWithStore(s: HookState, store: seq<Row>, t: TaskId)
    requires InSync(s, store)
    ensures var d := s.progress.value.currentDay;
      var edited := DayScopedEdit(CompletedTasks(s), t, d);
      var store' := Apply(store, DayScopedWrite(s, t).value);
      var refetched := Fetch(store', s.user.value, s.plan.value.id);
      (HasTaskOn(refetched, t, d) <==> HasTaskOn(edited, t, d))
      && (HasTaskOn(refetched, t, d) <==> !HasTaskOn(CompletedTasks(s), t, d))
  {
    var d := s.progress.value.currentDay;
    var w := DayScopedWrite(s, t).value;
    var store' := Apply(store, w);
    var row := Row(s.user.value, s.plan.value.id, d, t);
    if w.Insert? {
      assert row in store';
    } else {
      assert Matches(row, w.key);
      assert row !in store';
    }
  }

  // ------------------------------------------------------------------------
  // 2. and 3. `days_data.length` read on an object.

  /** As written, `current_day >= days_data.length`: the declared `days_data`
      is an object with a `days` array and no `length`, and a comparison with
      the missing field is false. `lengthField` is that field, if present. */
  function IsLastDayAsWritten(currentDay: int, lengthField: Option<int>): (last: bool)
    ensures lengthField.None? ==> !last
    ensures lengthField.Some? ==> (last <==> IsLastDay(currentDay, lengthField.value))
  {
    if lengthField.Some? then currentDay >= lengthField.value else false
  }

  /** As written, the page never recognises the last day, although from that
      day the hook refuses to advance. */
  lemma LastDayNotRecognised(s: HookState, rpc: Outcome)
    requires Ready(s) && s.progress.value.currentDay == |s.plan.value.days|
    ensures !IsLastDayAsWritten(s.progress.value.currentDay, None)
    ensures IsLastDay(s.progress.value.currentDay, |s.plan.value.days|)
    ensures Advance(s, rpc) == AdvanceResult(Ok(false), false)
  {
  }

  /** As written, `totalDays = days_data.length`, which `Array.from` reads as
      length zero when the field is missing. */
  function DotsAsWritten(lengthField: Option<int>, currentDay: int, selectedDay: Option<int>): (dots: seq<Dot>)
    ensures lengthField.None? ==> dots == []
    ensures lengthField.Some? ==> dots == Dots(lengthField.value, currentDay, selectedDay)
  {
    Dots(if lengthField.Some? then lengthField.value else 0, currentDay, selectedDay)
  }

  /** As written, the strip is empty for the declared shape, so no dot is
      current even on a day inside the plan; with the day count the strip has
      one current dot. */
  lemma NoCurrentDotAsWritten(plan: WeeklyPlan, currentDay: int, selectedDay: Option<int>)
    requires 1 <= currentDay <= |plan.days|
    ensures |DotsAsWritten(None, currentDay, selectedDay)| == 0
    ensures CountCurrent(DotsAsWritten(None, currentDay, selectedDay)) == 0
    ensures CountCurrent(Dots(|plan.days|, currentDay, selectedDay)) == 1
  {
    ExactlyOneCurrentDot(|plan.days|, currentDay, selectedDay);
  }

  // ------------------------------------------------------------------------
  // 4. The progress bar counts completions of every day.

  /** The read of rows of one (user, plan) lists them one for one, in order. */
  lemma {:induction false} FetchOwnRows(store: seq<Row>, u: UserId, p: PlanId)
    requires forall i :: 0 <= i < |store| ==> store[i].userId == u && store[i].planId == p
    ensures |Fetch(store, u, p)| == |store|
    ensures forall i :: 0 <= i < |store| ==> Fetch(store, u, p)[i] == TaskCompletion(store[i].taskId, Some(store[i].day))
  {
    if |store| > 0 {
      FetchOwnRows(store[1..], u, p);
    }
  }

  /** As written: with the cache in sync, the two completions of day 1 fill
      the bar of day 2, whose tasks are both open. */
  lemma FullBarOnOpenDay()
    ensures var plan := WeeklyPlan("p", [DayData(1, [Task("a", 10), Task("b", 10)]),
                                          DayData(2, [Task("c", 10), Task("d", 10)])]);
      var store := [Row("u", "p", 1, "a"), Row("u", "p", 1, "b")];
      var s := HookState(Some("u"), Some(plan), Some(UserProgress("u", "p", 2)), Some(Fetch(store, "u", "p")));
      var b := ProgressInputs(s);
      && InSync(s, store)
      && !AllTasksCompleted(CurrentDay(s.plan, s.progress), CompletedTasks(s))
      && Progress(b.completed, b.total) == 100.0
  {
    var plan := WeeklyPlan("p", [DayData(1, [Task("a", 10), Task("b", 10)]),
                                 DayData(2, [Task("c", 10), Task("d", 10)])]);
    var store := [Row("u", "p", 1, "a"), Row("u", "p", 1, "b")];
    FetchOwnRows(store, "u", "p");
    var cs := Fetch(store, "u", "p");
    assert cs == [TaskCompletion("a", Some(1)), TaskCompletion("b", Some(1))];
    var s := HookState(Some("u"), Some(plan), Some(UserProgress("u", "p", 2)), Some(cs));
    assert CurrentDay(s.plan, s.progress) == Some(plan.days[1]);
    assert !HasTask(cs, "c");
    assert !AllTasksCompleted(Some(plan.days[1]), cs);
    assert ProgressInputs(s) == BarInputs(2, 2);
    assert Progress(2, 2) == 100.0;
  }

  /** The read of two completions on day 1 and one on day 2. */
  lemma ReadTwoDays()
    ensures Fetch([Row("u", "p", 1, "a"), Row("u", "p", 1, "b"), Row("u", "p", 2, "c")], "u", "p")
      == [TaskCompletion("a", Some(1)), TaskCompletion("b", Some(1)), TaskCompletion("c", Some(2))]
  {
    var store := [Row("u", "p", 1, "a"), Row("u", "p", 1, "b"), Row("u", "p", 2, "c")];
    FetchOwnRows(store, "u", "p");
  }

  /** As written: one more completion, on day 2, pushes the bar past full
      while one task of the day is still open. */
  lemma BarPastFullOnOpenDay()
    ensures var plan := WeeklyPlan("p", [DayData(1, [Task("a", 10), Task("b", 10)]),
                                          DayData(2, [Task("c", 10), Task("d", 10)])]);
      var store := [Row("u", "p", 1, "a"), Row("u", "p", 1, "b"), Row("u", "p", 2, "c")];
      var cs := [TaskCompletion("a", Some(1)), TaskCompletion("b", Some(1)), TaskCompletion("c", Some(2))];
      var s := HookState(Some("u"), Some(plan), Some(UserProgress("u", "p", 2)), Some(cs));
      var b := ProgressInputs(s);
      && InSync(s, store)
      && !AllTasksCompleted(CurrentDay(s.plan, s.progress), CompletedTasks(s))
      && Progress(b.completed, b.total) == 150.0
  {
    var plan := WeeklyPlan("p", [DayData(1, [Task("a", 10), Task("b", 10)]),
                                 DayData(2, [Task("c", 10), Task("d", 10)])]);
    var store := [Row("u", "p", 1, "a"), Row("u", "p", 1, "b"), Row("u", "p", 2, "c")];
    var cs := [TaskCompletion("a", Some(1)), TaskCompletion("b", Some(1)), TaskCompletion("c", Some(2))];
    var s := HookState(Some("u"), Some(plan), Some(UserProgress("u", "p", 2)), Some(cs));
    assert InSync(s, store) by {
      ReadTwoDays();
    }
    assert CurrentDay(s.plan, s.progress) == Some(plan.days[1]);
    assert !AllTasksCompleted(Some(plan.days[1]), cs) by {
      assert !HasTask(cs, "d");
    }
    assert ProgressInputs(s) == BarInputs(3, 2);
  }

  /** Corrected count: the tasks of the day completed on day `d`. */
  function CountDoneToday(tasks: seq<Task>, cs: seq<TaskCompletion>, d: int): (n: nat)
    ensures n <= |tasks|
    ensures n == |tasks| <==> forall i :: 0 <= i < |tasks| ==> HasTaskOn(cs, tasks[i].id, d)
  {
    if |tasks| == 0 then 0
    else
      assert forall i :: 0 <= i < |tasks| - 1 ==> tasks[1..][i] == tasks[i + 1];
      (if HasTaskOn(cs, tasks[0].id, d) then 1 else 0) + CountDoneToday(tasks[1..], cs, d)
  }

  /** Corrected bar inputs: the completed count covers the current day only. */
  function DayScopedProgressInputs(s: HookState): (b: BarInputs)
    ensures b.total == ProgressInputs(s).total
    ensures b.completed <= b.total
    ensures (CurrentDay(s.plan, s.progress).Some? && s.progress.Some?) ==>
      (b.completed == b.total <==> forall i :: 0 <= i < b.total ==>
        HasTaskOn(CompletedTasks(s), CurrentDay(s.plan, s.progress).value.tasks[i].id, s.progress.value.currentDay))
  {
    var current := CurrentDay(s.plan, s.progress);
    if current.Some? && s.progress.Some? then
      BarInputs(CountDoneToday(current.value.tasks, CompletedTasks(s), s.progress.value.currentDay), |current.value.tasks|)
    else BarInputs(0, ProgressInputs(s).total)
  }

  /** Corrected: the bar is full exactly when the day has tasks and every one
      of them is completed on the current day, and it never passes full. */
  lemma DayScopedBarFullIff(s: HookState)
    requires CurrentDay(s.plan, s.progress).Some? && s.progress.Some?
    ensures var b := DayScopedProgressInputs(s);
      var tasks := CurrentDay(s.plan, s.progress).value.tasks;
      && (Progress(b.completed, b.total) == 100.0 <==>
          |tasks| > 0 && forall i :: 0 <= i < |tasks| ==> HasTaskOn(CompletedTasks(s), tasks[i].id, s.progress.value.currentDay))
      && 0.0 <= Progress(b.completed, b.total) <= 100.0
  {
    var b := DayScopedProgressInputs(s);
    ProgressFullIff(b.completed, b.total);
    ProgressBounds(b.completed, b.total);
  }
}

=== FILE: remote_store.dfy ===
/** The `task_completions` table of the hosted store, as far as the hook
    touches it: rows keyed by user, plan, day and task; a day-scoped delete,
    an insert, and the plan-wide read the hook issues. */
module RemoteStore {
  import opened Wrappers
  import opened Tasks
  import opened Completions

  /** One stored completion row. The table's generated `id` and
      `completed_at` columns are dropped, so two distinct rows may agree on
      every field kept here (the duplicate-row case). */
  datatype Row = Row(userId: UserId, planId: PlanId, day: int, taskId: TaskId)

  /** The four columns a write is keyed by: the values an insert supplies, or
      the `.eq` filters of a delete. A key is a query, not a row: a delete
      by key removes every row that `Matches` it. */
  datatype Key = Key(userId: UserId, planId: PlanId, day: int, taskId: TaskId)

  /** A remote write the hook can issue. */
  datatype Write = Insert(key: Key) | Delete(key: Key)

  predicate Matches(row: Row, k: Key) {
    row.userId == k.userId && row.planId == k.planId && row.day == k.day && row.taskId == k.taskId
  }

  /** The rows that survive a delete keyed by `k`, in their original order. */
  function DeleteRows(store: seq<Row>, k: Key): (r: seq<Row>)
    ensures forall i :: 0 <= i < |r| ==> !Matches(r[i], k) && r[i] in store
    ensures forall row :: row in store && !Matches(row, k) ==> row in r
  {
    if |store| == 0 then []
    else (if Matches(store[0], k) then [] else [store[0]]) + DeleteRows(store[1..], k)
  }

  /** The store after a write: an insert adds one row, a delete removes every
      row matching all four key columns. */
  function Apply(store: seq<Row>, w: Write): (r: seq<Row>)
    ensures w.Insert? ==> r == store + [Row(w.key.userId, w.key.planId, w.key.day, w.key.taskId)]
    ensures w.Delete? ==> forall row :: row in r <==> row in store && !Matches(row, w.key)
  {
    match w
    case Insert(k) => store + [Row(k.userId, k.planId, k.day, k.taskId)]
    case Delete(k) => DeleteRows(store, k)
  }

  /** The plan-wide read of the hook: every row of (user, plan), whatever its
      day, as a cached completion. */
  function Fetch(store: seq<Row>, u: UserId, p: PlanId): (cs: seq<TaskCompletion>)
    ensures forall t :: HasTask(cs, t) <==>
      exists row :: row in store && row.userId == u && row.planId == p && row.taskId == t
    ensures forall t, d :: HasTaskOn(cs, t, d) <==> Row(u, p, d, t) in store
    ensures forall i :: 0 <= i < |cs| ==> cs[i].dayNumber.Some?
  {
    if |store| == 0 then []
    else
      var rest := Fetch(store[1..], u, p);
      var row := store[0];
      assert forall r :: r in store <==> r == row || r in store[1..];
      if row.userId == u && row.planId == p then
        var cs := [TaskCompletion(row.taskId, Some(row.day))] + rest;
        assert forall i :: 0 <= i < |rest| ==> cs[i + 1] == rest[i];
        assert forall t :: HasTask(rest, t) ==> HasTask(cs, t);
        assert forall t, d :: HasTaskOn(rest, t, d) ==> HasTaskOn(cs, t, d);
        assert HasTask(cs, row.taskId);
        assert HasTaskOn(cs, row.taskId, row.day);
        cs
      else rest
  }

  /** Fetching distributes over appended rows. */
  lemma {:induction false} FetchAppend(a: seq<Row>, b: seq<Row>, u: UserId, p: PlanId)
    ensures Fetch(a + b, u, p) == Fetch(a, u, p) + Fetch(b, u, p)
  {
    if |a| == 0 {
      assert a + b == b;
    } else {
      assert (a + b)[1..] == a[1..] + b;
      FetchAppend(a[1..], b, u, p);
    }
  }

  /** A delete scoped to one day leaves the task completed, as seen by the
      plan-wide read, whenever a row for it exists on another day. */
  lemma DeleteKeepsOtherDays(store: seq<Row>, k: Key, d: int)
    requires Row(k.userId, k.planId, d, k.taskId) in store
    requires d != k.day
    ensures HasTask(Fetch(Apply(store, Delete(k)), k.userId, k.planId), k.taskId)
  {
    var row := Row(k.userId, k.planId, d, k.taskId);
    assert row in Apply(store, Delete(k));
  }

  /** Deleting a key that no row matches leaves the store exactly as it was. */
  lemma {:induction false} DeleteUnmatched(store: seq<Row>, k: Key)
    requires forall i :: 0 <= i < |store| ==> !Matches(store[i], k)
    ensures DeleteRows(store, k) == store
  {
    if |store| > 0 {
      DeleteUnmatched(store[1..], k);
      assert store == [store[0]] + store[1..];
    }
  }

  /** Insert then delete of the same key, on a store holding no row for that
      key, leaves zero net rows: the store is restored exactly. */
  lemma {:induction false} InsertThenDeleteRestores(store: seq<Row>, k: Key)
    requires forall i :: 0 <= i < |store| ==> !Matches(store[i], k)
    ensures Apply(Apply(store, Insert(k)), Delete(k)) == store
  {
    var row := Row(k.userId, k.planId, k.day, k.taskId);
    DeleteRowsAppend(store, [row], k);
    DeleteUnmatched(store, k);
    assert DeleteRows([row], k) == [];
  }

  lemma {:induction false} DeleteRowsAppend(a: seq<Row>, b: seq<Row>, k: Key)
    ensures DeleteRows(a + b, k) == DeleteRows(a, k) + DeleteRows(b, k)
  {
    if |a| == 0 {
      assert a + b == b;
    } else {
      assert (a + b)[1..] == a[1..] + b;
      DeleteRowsAppend(a[1..], b, k);
    }
  }

  /** Deleting the key of the one matching row removes exactly that row. */
  lemma DeleteOnlyMatch(pre: seq<Row>, row: Row, post: seq<Row>, k: Key)
    requires Matches(row, k)
    requires forall i :: 0 <= i < |pre| ==> !Matches(pre[i], k)
    requires forall i :: 0 <= i < |post| ==> !Matches(post[i], k)
    ensures DeleteRows(pre + [row] + post, k) == pre + post
  {
    assert DeleteRows(pre + [row], k) == pre by {
      DeleteRowsAppend(pre, [row], k);
      DeleteUnmatched(pre, k);
      assert DeleteRows([row], k) == [];
      assert pre + [] == pre;
    }
    DeleteRowsAppend(pre + [row], post, k);
    DeleteUnmatched(post, k);
  }

  /** Moving a row to the end of the store permutes the read's entries. */
  lemma FetchMovedRow(pre: seq<Row>, row: Row, post: seq<Row>, u: UserId, p: PlanId)
    ensures multiset(Fetch(pre + post + [row], u, p)) == multiset(Fetch(pre + [row] + post, u, p))
  {
    FetchAppend(pre + post, [row], u, p);
    FetchAppend(pre, post, u, p);
    FetchAppend(pre + [row], post, u, p);
    FetchAppend(pre, [row], u, p);
  }
}

=== FILE: tasks.dfy ===
/** The record shapes of a weekly plan and of a user's progress through it,
    keeping only the fields the progress logic reads. */
module Tasks {
  import opened Wrappers

  type TaskId = string
  type UserId = string
  type PlanId = string

  /** One task of a day; `minutes` is its estimated time. */
  datatype Task = Task(id: TaskId, minutes: int)

  /** One day of a plan: its 1-based number and its ordered tasks. */
  datatype DayData = DayData(day: int, tasks: seq<Task>)

  /** An active weekly plan with its ordered list of days. */
  datatype WeeklyPlan = WeeklyPlan(id: PlanId, days: seq<DayData>)

  /** A user's pointer into a plan: the day they are on. */
  datatype UserProgress = UserProgress(userId: UserId, planId: PlanId, currentDay: int)

  /** A cached completion: the task it completes and the day it was recorded on.
      Rows read from the store always carry a day; an optimistic entry created
      while progress is absent carries none. */
  datatype TaskCompletion = TaskCompletion(taskId: TaskId, dayNumber: Option<int>)

  /** The platform a category belongs to. */
  datatype Platform = Platform(name: string)

  /** A skill category, with its optional platform, icon name and URL slug. */
  datatype Category = Category(id: string, platform: Option<Platform>, icon: string, slug: string)
}

=== FILE: use_tasks.dfy ===
/** The progress hook of one category page: the active plan, the user's
    progress row, the cached completions, and the two mutations (toggle a
    task, advance the day). Every remote answer the logic depends on is a
    parameter: an `Outcome` for a write or the completions read, a `Result`
    for a read whose value is used;
    query caching and invalidation timing are not modelled, only their effect
    on the local view. */
module UseTasks {
  import opened Wrappers
  import opened Tasks
  import opened Completions
  import opened RemoteStore

  /** The single error a failed remote call is reported as. */
  datatype RemoteError = RemoteError

  /** The hook's local view. `cache` is the completions query's data:
      `None` until the query has produced any. */
  datatype HookState = HookState(
    user: Option<UserId>,
    plan: Option<WeeklyPlan>,
    progress: Option<UserProgress>,
    cache: Option<seq<TaskCompletion>>)

  /** The completions list the hook exposes (`data = []` default). */
  function CompletedTasks(s: HookState): (cs: seq<TaskCompletion>)
    ensures s.cache.None? ==> cs == []
    ensures s.cache.Some? ==> cs == s.cache.value
  {
    s.cache.GetOr([])
  }

  /** User, plan and progress are all loaded: the mutations' precondition. */
  predicate Ready(s: HookState) {
    s.user.Some? && s.plan.Some? && s.progress.Some?
  }

  // ---------------------------------------------------------------- loading

  /** The plan query: no query without a non-empty slug; otherwise whatever the
      store answered (absent plan is a valid answer, an error propagates). */
  datatype PlanLoad = PlanLoad(value: Result<Option<WeeklyPlan>, RemoteError>, queried: bool)

  function LoadPlan(slug: Option<string>, answer: Result<Option<WeeklyPlan>, RemoteError>): (r: PlanLoad)
    ensures r.queried <==> slug.Some? && slug.value != ""
    ensures !r.queried ==> r.value == Ok(None)
    ensures r.queried ==> r.value == answer
  {
    if slug.None? || slug.value == "" then PlanLoad(Ok(None), false)
    else PlanLoad(answer, true)
  }

  /** The progress query: read the (user, plan) row; if there is none, insert
      one at day 1. `read` and `insert` are the store's answers. */
  datatype ProgressLoad = ProgressLoad(value: Result<Option<UserProgress>, RemoteError>, queried: bool, inserted: bool)

  function LoadProgress(user: Option<UserId>, plan: Option<WeeklyPlan>,
                        read: Result<Option<UserProgress>, RemoteError>, insert: Outcome): (r: ProgressLoad)
    ensures r.queried <==> user.Some? && plan.Some?
    ensures !r.queried ==> r.value == Ok(None) && !r.inserted
    ensures r.inserted <==> r.queried && read == Ok(None)
    ensures r.queried && read.Ok? && read.value.Some? ==> r.value == read
    ensures r.queried && read.Err? ==> r.value.Err?
    ensures r.inserted && insert == Success ==>
      r.value == Ok(Some(UserProgress(user.value, plan.value.id, 1)))
    ensures r.inserted && insert == Failure ==> r.value.Err?
  {
    if user.None? || plan.None? then ProgressLoad(Ok(None), false, false)
    else match read
      case Err(e) => ProgressLoad(Err(e), true, false)
      case Ok(Some(p)) => ProgressLoad(Ok(Some(p)), true, false)
      case Ok(None) =>
        if insert == Success then ProgressLoad(Ok(Some(UserProgress(user.value, plan.value.id, 1))), true, true)
        else ProgressLoad(Err(RemoteError), true, true)
  }

  /** Lazy creation happens once: a load that created progress, repeated
      with the store now returning that row, inserts nothing and yields the
      same row. */
  lemma LoadProgressCreatesOnce(user: Option<UserId>, plan: Option<WeeklyPlan>, insert: Outcome, again: Outcome)
    requires LoadProgress(user, plan, Ok(None), insert).inserted
    requires LoadProgress(user, plan, Ok(None), insert).value.Ok?
    ensures var first := LoadProgress(user, plan, Ok(None), insert);
      var second := LoadProgress(user, plan, first.value, again);
      !second.inserted && second.value == first.value && first.value.value.value.currentDay == 1
  {
  }

  /** The completions query: every stored row of (user, plan), not filtered by
      day; an empty list without a user or a plan; the read's error otherwise. */
  function LoadCompletions(user: Option<UserId>, plan: Option<WeeklyPlan>, store: seq<Row>, read: Outcome)
    : (r: Result<seq<TaskCompletion>, RemoteError>)
    ensures user.None? || plan.None? ==> r == Ok([])
    ensures user.Some? && plan.Some? ==> (r.Err? <==> read == Failure)
    ensures user.Some? && plan.Some? && r.Ok? ==> forall t :: HasTask(r.value, t) <==>
      exists row :: row in store && row.userId == user.value && row.planId == plan.value.id && row.taskId == t
  {
    if user.None? || plan.None? then Ok([])
    else if read == Failure then Err(RemoteError)
    else Ok(Fetch(store, user.value, plan.value.id))
  }

  // ---------------------------------------------------------------- derived

  /** Index of the first day numbered `n`, if any. */
  function FindDay(days: seq<DayData>, n: int): (r: Option<nat>)
    ensures r.Some? ==>
      (r.value < |days| && days[r.value].day == n && forall j :: 0 <= j < r.value ==> days[j].day != n)
    ensures r.None? ==> forall j :: 0 <= j < |days| ==> days[j].day != n
  {
    if |days| == 0 then None
    else if days[0].day == n then Some(0)
    else match FindDay(days[1..], n)
      case None => None
      case Some(i) => Some(i + 1)
  }

  /** Some day of the list is numbered `n`. */
  predicate HasDayNumbered(days: seq<DayData>, n: int) {
    exists j :: 0 <= j < |days| && days[j].day == n
  }

  /** `currentDay`: the first day whose number is the progress's current day,
      else the plan's first day, else none. */
  function CurrentDay(plan: Option<WeeklyPlan>, progress: Option<UserProgress>): (r: Option<DayData>)
    ensures plan.None? ==> r.None?
    ensures (plan.Some? && progress.Some? && HasDayNumbered(plan.value.days, progress.value.currentDay)) ==>
      exists k :: 0 <= k < |plan.value.days| && r == Some(plan.value.days[k])
        && plan.value.days[k].day == progress.value.currentDay
        && forall j :: 0 <= j < k ==> plan.value.days[j].day != progress.value.currentDay
    ensures (plan.Some? && (progress.None? || !HasDayNumbered(plan.value.days, progress.value.currentDay))) ==>
      r == (if |plan.value.days| > 0 then Some(plan.value.days[0]) else None)
  {
    if plan.None? then None
    else
      var days := plan.value.days;
      var found := if progress.Some? then FindDay(days, progress.value.currentDay) else None;
      if found.Some? then Some(days[found.value])
      else if |days| > 0 then Some(days[0])
      else None
  }

  /** Every task of the list is completed (`tasks.every(isTaskCompleted)`). */
  function EveryCompleted(tasks: seq<Task>, cs: seq<TaskCompletion>): (b: bool)
    ensures b <==> forall i :: 0 <= i < |tasks| ==> HasTask(cs, tasks[i].id)
  {
    |tasks| == 0 || (HasTask(cs, tasks[0].id) && EveryCompleted(tasks[1..], cs))
  }

  /** `allTasksCompleted`: false without a current day; otherwise every task
      id of that day is a member of the cached list, on any day. */
  function AllTasksCompleted(current: Option<DayData>, cs: seq<TaskCompletion>): (b: bool)
    ensures current.None? ==> !b
    ensures current.Some? ==> (b <==> forall i :: 0 <= i < |current.value.tasks| ==> HasTask(cs, current.value.tasks[i].id))
  {
    current.Some? && EveryCompleted(current.value.tasks, cs)
  }

  /** A day with no tasks counts as fully completed. */
  lemma AllTasksCompletedVacuous(d: DayData, cs: seq<TaskCompletion>)
    requires |d.tasks| == 0
    ensures AllTasksCompleted(Some(d), cs)
  {
  }

  // ---------------------------------------------------------------- toggle

  /** The remote write a toggle issues: none unless user, plan and progress are
      loaded; a delete keyed by the current day when the task is in the cached
      list (on any day); an insert for the current day otherwise. */
  function RemoteWrite(s: HookState, t: TaskId): (w: Option<Write>)
    ensures w.None? <==> !Ready(s)
    ensures w.Some? ==> w.value.key == Key(s.user.value, s.plan.value.id, s.progress.value.currentDay, t)
    ensures w.Some? ==> (w.value.Delete? <==> HasTask(CompletedTasks(s), t))
  {
    if !Ready(s) then None
    else
      var k := Key(s.user.value, s.plan.value.id, s.progress.value.currentDay, t);
      if HasTask(CompletedTasks(s), t) then Some(Delete(k)) else Some(Insert(k))
  }

  /** The day an optimistic entry is stamped with (`userProgress?.current_day`). */
  function ProgressDay(p: Option<UserProgress>): (d: Option<int>)
    ensures d.Some? <==> p.Some?
    ensures d.Some? ==> d.value == p.value.currentDay
  {
    if p.Some? then Some(p.value.currentDay) else None
  }

  datatype ToggleResult = ToggleResult(state: HookState, write: Option<Write>)

  /** One toggle, from the optimistic edit to the settled local view (before
      the refetch that invalidation triggers). The optimistic edit is applied
      whatever the precondition; on a failed write the cache goes back to the
      snapshot when the cache had data before the toggle, and otherwise keeps
      the optimistic edit (there is no snapshot to restore). */
  function Toggle(s: HookState, t: TaskId, remote: Outcome): (r: ToggleResult)
    ensures r.state.user == s.user && r.state.plan == s.plan && r.state.progress == s.progress
    ensures r.write.Some? <==> Ready(s)
    ensures r.write.Some? ==> (r.write.value.Delete? <==> HasTask(CompletedTasks(s), t))
    ensures !(r.write.Some? && remote == Failure && s.cache.Some?) ==>
      r.state.cache == Some(OptimisticToggle(CompletedTasks(s), t, ProgressDay(s.progress)))
    ensures r.write.Some? && remote == Failure && s.cache.Some? ==> r.state == s
  {
    var snapshot := s.cache;
    var optimistic := OptimisticToggle(CompletedTasks(s), t, ProgressDay(s.progress));
    var w := RemoteWrite(s, t);
    var failed := w.Some? && remote == Failure;
    var cache := if failed && snapshot.Some? then snapshot else Some(optimistic);
    ToggleResult(s.(cache := cache), w)
  }

  /** After a toggle that did not fail, exactly the toggled task's membership
      has flipped. */
  lemma ToggleFlipsOnlyThatTask(s: HookState, t: TaskId, remote: Outcome, u: TaskId)
    requires !Ready(s) || remote == Success
    ensures var after := CompletedTasks(Toggle(s, t, remote).state);
      (HasTask(after, t) <==> !HasTask(CompletedTasks(s), t))
      && (u != t ==> (HasTask(after, u) <==> HasTask(CompletedTasks(s), u)))
  {
  }

  /** The remote write and the optimistic edit go the same way: a delete is
      issued exactly when the optimistic list no longer holds the task. */
  lemma WriteAgreesWithOptimisticEdit(s: HookState, t: TaskId)
    requires Ready(s)
    ensures var r := Toggle(s, t, Success);
      r.write.value.Delete? <==> !HasTask(r.state.cache.value, t)
  {
  }

  /** Without a snapshot (the cache had no data), a failed write leaves the
      optimistic entry in place until the refetch. */
  lemma FailureWithoutSnapshotKeepsOptimistic(s: HookState, t: TaskId)
    requires Ready(s) && s.cache.None?
    ensures HasTask(CompletedTasks(Toggle(s, t, Failure).state), t)
  {
  }

  /** The settle step: invalidation refetches the plan-wide completions; a
      failed read keeps the previous data. */
  function Refetch(s: HookState, store: seq<Row>, read: Outcome): (r: HookState)
    ensures r.user == s.user && r.plan == s.plan && r.progress == s.progress
    ensures s.user.Some? && s.plan.Some? && read == Success ==>
      r.cache == Some(Fetch(store, s.user.value, s.plan.value.id))
    ensures read == Failure ==> r == s
    ensures s.user.None? || s.plan.None? ==> r == s
  {
    if s.user.Some? && s.plan.Some? then
      match LoadCompletions(s.user, s.plan, store, read)
      case Ok(cs) => s.(cache := Some(cs))
      case Err(_) => s
    else s
  }

  /** The cache mirrors the store's rows for the hook's user and plan. */
  predicate InSync(s: HookState, store: seq<Row>) {
    Ready(s) && s.cache == Some(Fetch(store, s.user.value, s.plan.value.id))
  }

  /** When every stored row of the toggled task lies on the current day, a
      successful toggle agrees with the store: the refetched list has the task
      exactly when the optimistic list does. */
  lemma ToggleAgreesWithStore(s: HookState, store: seq<Row>, t: TaskId)
    requires InSync(s, store)
    requires forall row :: (row in store && row.userId == s.user.value && row.planId == s.plan.value.id
      && row.taskId == t) ==> row.day == s.progress.value.currentDay
    ensures var r := Toggle(s, t, Success);
      var store' := Apply(store, r.write.value);
      HasTask(CompletedTasks(Refetch(r.state, store', Success)), t) <==> HasTask(CompletedTasks(r.state), t)
  {
    var r := Toggle(s, t, Success);
    var k := r.write.value.key;
    if r.write.value.Insert? {
      var row := Row(k.userId, k.planId, k.day, k.taskId);
      assert row in Apply(store, r.write.value);
    }
  }

  /** Toggling a task that is not completed twice, with a refetch after each
      successful write, leaves zero net rows and restores the cache. */
  lemma ToggleTwiceRestoresStore(s: HookState, store: seq<Row>, t: TaskId)
    requires InSync(s, store)
    requires !HasTask(CompletedTasks(s), t)
    ensures var r1 := Toggle(s, t, Success);
      var store1 := Apply(store, r1.write.value);
      var s1 := Refetch(r1.state, store1, Success);
      var r2 := Toggle(s1, t, Success);
      var store2 := Apply(store1, r2.write.value);
      store2 == store && Refetch(r2.state, store2, Success) == s
  {
    var r1 := Toggle(s, t, Success);
    var k := r1.write.value.key;
    var store1 := Apply(store, r1.write.value);
    var s1 := Refetch(r1.state, store1, Success);
    assert r1.write.value == Insert(k);
    var row := Row(k.userId, k.planId, k.day, k.taskId);
    assert row in store1;
    assert HasTask(CompletedTasks(s1), t);
    var r2 := Toggle(s1, t, Success);
    assert r2.write.value == Delete(k);
    assert forall i :: 0 <= i < |store| ==> !Matches(store[i], k) by {
      forall i | 0 <= i < |store|
        ensures !Matches(store[i], k)
      {
        assert store[i] in store;
      }
    }
    InsertThenDeleteRestores(store, k);
  }

  /** The first toggle of a task whose one stored row is on the current day
      deletes exactly that row, and the refetch no longer shows the task. */
  lemma ToggleDeletesOnlyRow(s: HookState, pre: seq<Row>, post: seq<Row>, t: TaskId)
    requires Ready(s)
    requires var row := Row(s.user.value, s.plan.value.id, s.progress.value.currentDay, t);
      InSync(s, pre + [row] + post)
    requires forall i :: 0 <= i < |pre| ==>
      !(pre[i].userId == s.user.value && pre[i].planId == s.plan.value.id && pre[i].taskId == t)
    requires forall i :: 0 <= i < |post| ==>
      !(post[i].userId == s.user.value && post[i].planId == s.plan.value.id && post[i].taskId == t)
    ensures var row := Row(s.user.value, s.plan.value.id, s.progress.value.currentDay, t);
      var r1 := Toggle(s, t, Success);
      var s1 := Refetch(r1.state, pre + post, Success);
      && r1.write == Some(Delete(Key(s.user.value, s.plan.value.id, s.progress.value.currentDay, t)))
      && Apply(pre + [row] + post, r1.write.value) == pre + post
      && InSync(s1, pre + post) && !HasTask(CompletedTasks(s1), t)
      && s1.user == s.user && s1.plan == s.plan && s1.progress == s.progress
  {
    var u, p := s.user.value, s.plan.value.id;
    var row := Row(u, p, s.progress.value.currentDay, t);
    var k := Key(u, p, s.progress.value.currentDay, t);
    assert HasTask(CompletedTasks(s), t) by {
      assert (pre + [row] + post)[|pre|] == row;
    }
    DeleteOnlyMatch(pre, row, post, k);
    var s1 := Refetch(Toggle(s, t, Success).state, pre + post, Success);
    forall x | x in pre + post && x.userId == u && x.planId == p
      ensures x.taskId != t
    {
      var i :| 0 <= i < |pre + post| && (pre + post)[i] == x;
      if i < |pre| {
        assert pre[i] == x;
      } else {
        assert post[i - |pre|] == x;
      }
    }
  }

  /** Toggling a task that is not completed, with the cache in sync, inserts
      its row for the current day at the end of the store, and the refetch
      reads the grown store. */
  lemma ToggleInsertsRow(s: HookState, store: seq<Row>, t: TaskId)
    requires InSync(s, store)
    requires !HasTask(CompletedTasks(s), t)
    ensures var row := Row(s.user.value, s.plan.value.id, s.progress.value.currentDay, t);
      var r := Toggle(s, t, Success);
      && r.write == Some(Insert(Key(s.user.value, s.plan.value.id, s.progress.value.currentDay, t)))
      && Apply(store, r.write.value) == store + [row]
      && Refetch(r.state, store + [row], Success) == s.(cache := Some(Fetch(store + [row], s.user.value, s.plan.value.id)))
  {
  }

  /** Toggling a completed task twice, when its one stored row is on the
      current day, deletes that row and inserts it again at the end: the store
      holds the same rows, and the refetched cache the same entries, though
      not necessarily in their original order. */
  lemma ToggleTwiceFromCompletedRestoresRows(s: HookState, pre: seq<Row>, post: seq<Row>, t: TaskId)
    requires Ready(s)
    requires var row := Row(s.user.value, s.plan.value.id, s.progress.value.currentDay, t);
      InSync(s, pre + [row] + post)
    requires forall i :: 0 <= i < |pre| ==>
      !(pre[i].userId == s.user.value && pre[i].planId == s.plan.value.id && pre[i].taskId == t)
    requires forall i :: 0 <= i < |post| ==>
      !(post[i].userId == s.user.value && post[i].planId == s.plan.value.id && post[i].taskId == t)
    ensures var row := Row(s.user.value, s.plan.value.id, s.progress.value.currentDay, t);
      var store := pre + [row] + post;
      var r1 := Toggle(s, t, Success);
      var store1 := Apply(store, r1.write.value);
      var s1 := Refetch(r1.state, store1, Success);
      var r2 := Toggle(s1, t, Success);
      var store2 := Apply(store1, r2.write.value);
      var s2 := Refetch(r2.state, store2, Success);
      && r1.write.value.Delete? && r2.write.value.Insert?
      && store2 == pre + post + [row]
      && multiset(store2) == multiset(store)
      && s2.user == s.user && s2.plan == s.plan && s2.progress == s.progress
      && multiset(CompletedTasks(s2)) == multiset(CompletedTasks(s))
  {
    var row := Row(s.user.value, s.plan.value.id, s.progress.value.currentDay, t);
    ToggleDeletesOnlyRow(s, pre, post, t);
    var s1 := Refetch(Toggle(s, t, Success).state, pre + post, Success);
    ToggleInsertsRow(s1, pre + post, t);
    FetchMovedRow(pre, row, post, s.user.value, s.plan.value.id);
  }

  /** Two stored rows for the same task on the current day are both deleted
      by the first toggle, and the second toggle inserts only one back. */
  lemma ToggleTwiceDropsDuplicateRow()
    ensures var s := HookState(Some("u"), Some(WeeklyPlan("p", [DayData(1, [Task("a", 10)])])),
                               Some(UserProgress("u", "p", 1)),
                               Some([TaskCompletion("a", Some(1)), TaskCompletion("a", Some(1))]));
      var store := [Row("u", "p", 1, "a"), Row("u", "p", 1, "a")];
      var r1 := Toggle(s, "a", Success);
      var store1 := Apply(store, r1.write.value);
      var r2 := Toggle(Refetch(r1.state, store1, Success), "a", Success);
      var store2 := Apply(store1, r2.write.value);
      InSync(s, store) && store1 == [] && store2 == [Row("u", "p", 1, "a")] && |store2| < |store|
  {
    var store := [Row("u", "p", 1, "a"), Row("u", "p", 1, "a")];
    assert Fetch(store[1..], "u", "p") == [TaskCompletion("a", Some(1))] by {
      assert store[1..][1..] == [];
    }
    assert Fetch(store, "u", "p") == [TaskCompletion("a", Some(1)), TaskCompletion("a", Some(1))];
    assert DeleteRows(store[1..], Key("u", "p", 1, "a")) == [] by {
      assert store[1..][1..] == [];
    }
  }

  /** Completing the one open task of the current day completes the day. */
  lemma CompletingLastTaskCompletesDay(s: HookState, t: TaskId, remote: Outcome)
    requires !Ready(s) || remote == Success
    requires CurrentDay(s.plan, s.progress).Some?
    requires !HasTask(CompletedTasks(s), t)
    requires var tasks := CurrentDay(s.plan, s.progress).value.tasks;
      forall i :: 0 <= i < |tasks| && tasks[i].id != t ==> HasTask(CompletedTasks(s), tasks[i].id)
    ensures AllTasksCompleted(CurrentDay(s.plan, s.progress), CompletedTasks(Toggle(s, t, remote).state))
  {
    var after := CompletedTasks(Toggle(s, t, remote).state);
    ToggleFlipsOnlyThatTask(s, t, remote, t);
    forall u | u != t
      ensures HasTask(after, u) <==> HasTask(CompletedTasks(s), u)
    {
      ToggleFlipsOnlyThatTask(s, t, remote, u);
    }
  }

  // ---------------------------------------------------------------- advance

  /** What `advanceToNextDay` resolves to, and whether it called the
      `advance_day` procedure. */
  datatype AdvanceResult = AdvanceResult(value: Result<bool, RemoteError>, called: bool)

  /** Advance: false without a call when user, plan or progress is missing or
      the next day would pass the last one; otherwise the procedure's outcome
      (true on success, its error on failure). */
  function Advance(s: HookState, rpc: Outcome): (r: AdvanceResult)
    ensures r.called <==> Ready(s) && s.progress.value.currentDay + 1 <= |s.plan.value.days|
    ensures !r.called ==> r.value == Ok(false)
    ensures r.called ==> (r.value == Ok(true) <==> rpc == Success)
    ensures r.called && rpc == Failure ==> r.value.Err?
  {
    if !Ready(s) then AdvanceResult(Ok(false), false)
    else
      var next := s.progress.value.currentDay + 1;
      if next > |s.plan.value.days| then AdvanceResult(Ok(false), false)
      else if rpc == Success then AdvanceResult(Ok(true), true)
      else AdvanceResult(Err(RemoteError), true)
  }

  /** A true result always means the day it asked for is within the plan:
      from a day in range, the next day is in range too. */
  lemma AdvanceStaysInBounds(s: HookState, rpc: Outcome)
    requires Ready(s) && 1 <= s.progress.value.currentDay
    requires Advance(s, rpc).value == Ok(true)
    ensures 2 <= s.progress.value.currentDay + 1 <= |s.plan.value.days|
  {
  }

  /** From the last day no call is made and the result is false. */
  lemma AdvanceFromLastDay(s: HookState, rpc: Outcome)
    requires Ready(s) && s.progress.value.currentDay == |s.plan.value.days|
    ensures Advance(s, rpc) == AdvanceResult(Ok(false), false)
  {
  }
}

=== FILE: wrappers.dfy ===
/** Three small wrappers used across the model: an optional value, a
    value-or-error result, and the pass/fail outcome of a remote call. */
module Wrappers {

  /** A value that may be absent (`undefined` / `null` in the source). */
  datatype Option<+T> = None | Some(value: T) {

    /** The wrapped value, or `default` when there is none (the `?? default` idiom). */
    function GetOr(default: T): T {
      match this
      case Some(v) => v
      case None => default
    }
  }

  /** The result of an asynchronous operation: a value, or the error it threw. */
  datatype Result<+R, +E> = Ok(value: R) | Err(error: E)

  /** What a remote call reported: it succeeded, or it returned an error. */
  datatype Outcome = Success | Failure
}
